=== FILE: README.md ===
# Career assistant: the job-analysis pipeline in Dafny

This project models the core of a career assistant. The assistant takes a job offer as a URL,
pasted text, or both. It extracts the hiring company's name with a language model, researches
the company's reputation on the web, and then asks the model for a structured verdict on how
well the offer fits a candidate profile.

The centre of the model is how the agent turns an unreliable model reply into a verdict:
- a direct JSON parse;
- on a JSON syntax error only, a regex-extracted span, a deletion-only repair pass and a second
  parse;
- folding of every failure into a fixed `ERROR` result.

Around it the project models:
- the model client: the configuration, the provider dispatch, the payloads for the two Ollama
  endpoints, and turning transport failures into reply text;
- the result data model and pydantic-style validation;
- the company-name cleanup and the research gate;
- the scraper's fetch fallback and its whitespace cleanup;
- the reputation search's result aggregation;
- the page's input composition.

Everything is a pure function. Each I/O step becomes a parameter (an oracle):
- the HTTP round trip to the model server;
- `json.loads`;
- pydantic's coercion of one scalar;
- `str()` of a non-string reply;
- `json.dumps` of the profile;
- the two page fetchers and the HTML-to-text step;
- the search engine session;
- the result of loading the profile file.

Functions also return what they passed to their oracles, so "this call is never made" can be
stated and proved:
- the request sent;
- the texts handed to `json.loads`;
- the fetchers tried;
- the search queries issued;
- the pipeline steps the page ran.

Modules follow the source files:

| module | models |
|---|---|
| `Wrappers` | `Option` and `Result` |
| `Text` | Python's `strip`, `replace(x, "")`, `split`, `splitlines`, `join`, `lower` and `s[:n]` |
| `Json` | decoded JSON values |
| `Failures` | the exceptions the code raises or catches, with their `str()` texts |
| `Models` | the pydantic models (app/core/models.py) |
| `Schema` | `AnalysisResult(**data)` |
| `Llm` | `LLMClient` (app/core/llm.py) |
| `Recovery` | the two-stage reading of the reply |
| `Agent` | `CareerAgent` (app/core/agent.py) |
| `Scraper` | app/tools/scraper.py |
| `Search` | app/tools/search.py |
| `App` | the page logic of app/main.py |

## Where the model follows the code rather than the documented intent

- **No range check on `match_score` and no verdict enumeration.** The prompt asks for a score
  from 0 to 100 and one of four verdicts. The pydantic model checks neither, so any integer and
  any string are accepted (`Schema.BuildAnyScore`, `Schema.BuildAnyVerdict`). A model reply of
  `"ERROR"` is indistinguishable from the agent's own error result.
- **Global deletions in the name cleanup.** The cleanup is meant to remove a chatty prefix such
  as "The company name is". It deletes every `"is "` and every `"."` anywhere in the reply, so
  names that contain them are mangled: "Genesis Labs" loses its "is " and comes out shorter
  (`Agent.CleanupCutsInsideNames`, `Agent.GenesisLabsIsAltered`).
- **Non-string replies.** `generate` returns whatever JSON value the reply field holds, which is
  normally a string. A `null` or numeric field makes `.strip()` raise in the name extraction,
  and makes `json.loads` raise a `TypeError` in the analysis. The analysis folds that error
  into the `ERROR` result like any other.
- **Two escaping exceptions.** Both steps that build the profile JSON sit before the `try` in
  `analyze`, so what they raise escapes (`Agent.ProfileJson`, `Agent.Analyze`). The lookup
  `professional_summary['short']` raises `KeyError` when the entry is missing. `json.dumps`
  raises `TypeError` when the summary holds a value it cannot serialise. `professional_summary`
  is typed `Dict[str, Any]`, so a YAML date there is enough. Every exception after these two is
  caught.
- **Incomplete trailing-comma repair.** The trailing-comma repair removes one comma per match:
  `",,}"` becomes `",}"` (`Recovery.DoubleTrailingCommaRemains`).

## Model

| member | source | states |
|---|---|---|
| `Text.Strip` | app/core/agent.py:30 | `strip()` yields a stripped slice of its input: the leading and trailing runs it drops are all whitespace |
| `Text.StripStripped` | app/tools/scraper.py:48-49 | stripping a stripped string changes nothing |
| `Text.DeleteAll` | app/core/agent.py:32 | `replace(pat, "")` only deletes characters; a deleted single character no longer occurs; text without the pattern is unchanged |
| `Text.DeleteFirstOccurrence` | app/core/agent.py:32 | `replace(pat, "")` deletes the first occurrence, keeps the text before it, and goes on after it; with the no-occurrence clause of `Text.DeleteAll` this fixes the result for every input |
| `Text.DeleteAllShrinks` | app/core/agent.py:32 | when the pattern occurs, `replace(pat, "")` really removes something: the result is shorter |
| `Text.Take` | app/core/agent.py:27 | `s[:n]` is a prefix of `s` of length `min(n, len(s))` |
| `Text.Split` | app/tools/scraper.py:49 | `split(sep)` gives at least one piece, no piece contains the separator, and joining the pieces with the separator gives back the text |
| `Text.SplitPiecesSubsequence` | app/tools/scraper.py:49 | the split pieces, in order, are a subsequence of the text |
| `Text.SplitLines` | app/tools/scraper.py:48 | no line of `splitlines()` contains a line boundary |
| `Text.SplitLinesSubsequence` | app/tools/scraper.py:48 | the lines of `splitlines()`, in order, are a subsequence of the text |
| `Text.SplitLinesJoin` | app/tools/scraper.py:50 | splitting the `"\n"`-join of non-empty, break-free lines gives back those lines |
| `Text.NonSpaceStrip` | app/tools/scraper.py:48-49 | `strip()` removes whitespace only: the non-space characters are the same before and after |
| `Text.NonSpaceSplit` | app/tools/scraper.py:49 | splitting on a whitespace separator loses whitespace only |
| `Text.NonSpaceSplitLines` | app/tools/scraper.py:48 | every line boundary `splitlines()` removes is whitespace, so the lines hold all the non-space characters of the text, in order |
| `Text.NonSpaceJoin` | app/tools/scraper.py:50 | joining with a whitespace separator adds whitespace only |
| `Text.Lower` | app/main.py:85 | `lower()` keeps the length and lowers each character |
| `Llm.NewClientDefaults` | app/core/llm.py:10-14 | unset variables give provider `ollama`, `http://localhost:11434` and `llama3`; set variables are taken verbatim |
| `Llm.OllamaRequest` | app/core/llm.py:28-81 | a truthy system prompt routes to `/api/chat` with exactly a system message then a user message, otherwise to `/api/generate` with the prompt; both use the configured model, no streaming, the fixed options and a 120 s timeout; `format: json` appears iff JSON mode is requested |
| `Llm.AskedOllamaRequest` | app/core/llm.py:59-81 | reading a built request back recovers the prompt, the system prompt (dropped when falsy) and the JSON flag |
| `Llm.CompletionField` | app/core/llm.py:54 | `data.get("response", "")`: a present key gives its value as it is; a missing key reads as `""`; a non-object body raises `AttributeError` |
| `Llm.ChatField` | app/core/llm.py:87 | `data.get("message", {}).get("content", "")`: a present `message.content` gives its value as it is; a missing message or content reads as `""`; a non-object message raises |
| `Llm.CallOllama` | app/core/llm.py:50-57 | exactly the built request is sent; the call never raises; a response's reply field is returned; an `AttributeError` while reading it, or a transport failure, becomes `"Error calling Ollama[ Chat]: " + str(e)` |
| `Llm.Generate` | app/core/llm.py:16-26 | a request is sent iff the provider is `ollama`; `gemini` returns the fixed placeholder text; any other provider raises `Unknown LLM Provider` |
| `Llm.CompletionReplyIsResponseField` | app/core/llm.py:50-54 | `generate` without a system prompt returns the server's `response` field unchanged |
| `Llm.ChatReplyIsMessageContent` | app/core/llm.py:83-87 | `generate` with a system prompt returns the server's `message.content` field unchanged |
| `Llm.NonObjectBodyIsErrorText` | app/core/llm.py:50-57 | a response body that is not an object turns into the text "Error calling Ollama: '<type>' object has no attribute 'get'" |
| `Llm.MissingReplyFieldIsEmpty` | app/core/llm.py:83-87 | a response body without the reply field reads as the empty reply on either endpoint |
| `Schema.Build` | app/core/models.py:60-66 | a non-object raises the `**` mapping error; an object builds iff every present field is accepted (`Schema.Validates`: a coercible score and verdict, a null or coercible summary, arrays of coercible strings for `pros` and `cons`, a null or object filter check with coercible flags); a failed score or verdict coercion and a non-list `pros` or `cons` are each reported as a field error |
| `Schema.FieldsOk` | app/core/models.py:55-66 | the six field checks all pass exactly when every present field is accepted; keys outside the schema accept anything |
| `Schema.BuildNonListPros` | app/core/models.py:64 | `{"pros": v}` with a non-list `v` fails with the one field error "Input should be a valid list" at `pros` |
| `Schema.BuildToJson` | app/core/models.py:60-66 | every result read back from its own JSON form is that result |
| `Schema.BuildIgnoresUnknownKeys` | app/core/models.py:60-66 | keys outside the result's fields have no influence |
| `Schema.BuildEmptyObject` | app/core/models.py:60-66 | an empty object validates to the declared defaults: score 0, `PENDING`, no summary, empty lists, no filter check |
| `Schema.BuildEmptyFilterStatus` | app/core/models.py:55-58 | an empty filter-check object gives a status whose three flags all default to true |
| `Schema.BuildAnyScore` | app/core/models.py:61 | every integer, out of 0..100 too, is accepted as the score |
| `Schema.BuildAnyVerdict` | app/core/models.py:62 | every string is accepted as the verdict |
| `Recovery.FindSpan` | app/core/agent.py:122-126 | the computed span lies within the text |
| `Recovery.FindSpanIsRegexSearch` | app/core/agent.py:122-126 | a span is found iff the regex `\{.*"match_score".*\}` (DOTALL) matches; the span is a match and is the leftmost-longest one, from the first `{` to the last `}` |
| `Recovery.CommentMatchUnique` | app/core/agent.py:127 | the comment regex has at most one match at each line start, and the scan finds exactly it |
| `Recovery.StripCommentLines` | app/core/agent.py:127 | comment blanking only deletes characters; together with `KeptLine`, `CommentLineDeleted` and `LastLineKept` it is fixed line by line |
| `Recovery.StripCommentsLeavesNone` | app/core/agent.py:127 | after the substitution no line of the text is a comment line: none at the start and none after any line break |
| `Recovery.CommentLineDeleted` | app/core/agent.py:127 | at a line start, a comment line (leading whitespace, `//`, the rest of the line) is deleted exactly, up to its line break, and the scan goes on from there |
| `Recovery.StripCommentLinesUnchanged` | app/core/agent.py:127 | text without comment lines is left unchanged |
| `Recovery.CommentAheadOfLine` | app/core/agent.py:127 | for a line holding a non-space character, whether the comment regex matches at its start depends on that line alone |
| `Recovery.CommentAheadPastBlank` | app/core/agent.py:127 | leading whitespace, line breaks included, does not change whether the comment regex matches, so a blank line in front of a comment line is part of its match |
| `Recovery.KeptLine` | app/core/agent.py:127 | a line (with its line break) at which no comment match starts is kept whole, and the scan resumes at the start of the next line |
| `Recovery.KeptTextLine` | app/core/agent.py:127 | a line with text that is not a comment line is kept whole with its line break, whatever follows |
| `Recovery.LastLineKept` | app/core/agent.py:127 | a last line that is not a comment line is kept as it is |
| `Recovery.CommentLineInsideObject` | app/core/agent.py:127 | in an object `{`, comment line, field line, `}`, only the comment text goes: the line breaks, the field line and both braces stay |
| `Recovery.StripCommentsInsideObject` | app/core/agent.py:127 | `{`, `  // note`, `  "match_score": 80`, `}` becomes `{`, an empty line, the field line, `}` |
| `Recovery.StripCommentsExample` | app/core/agent.py:127 | a `//` line is blanked and its line break stays |
| `Recovery.CommaMatchUnique` | app/core/agent.py:128-129 | the trailing-comma regex has at most one match at each position, and the scan finds exactly it |
| `Recovery.DropTrailingCommas` | app/core/agent.py:128-129 | the trailing-comma substitution only deletes characters; with `DropTrailingCommasUnchanged` and `DropSingleTrailingComma` it is fixed on every input |
| `Recovery.DropTrailingCommasUnchanged` | app/core/agent.py:128-129 | text in which the comma regex matches nowhere comes through unchanged |
| `Recovery.DropTrailingCommasKeepsSkeleton` | app/core/agent.py:128-129 | the substitution removes only commas and whitespace; every other character is kept in order |
| `Recovery.DropSingleTrailingComma` | app/core/agent.py:128-129 | a comma and whitespace before a closing bracket are removed, and the text on either side is repaired independently |
| `Recovery.DoubleTrailingCommaRemains` | app/core/agent.py:128 | two commas before a `}` lose only the second |
| `Recovery.Repair` | app/core/agent.py:127-129 | the repair pass never inserts characters; it is the comment scan followed by the `}` and the `]` comma scans, each pinned by its own laws |
| `Recovery.RepairUnchanged` | app/core/agent.py:127-129 | a span with no comment line and no trailing comma before either bracket is returned unchanged |
| `Recovery.RepairCommentInsideObject` | app/core/agent.py:127-129 | an object with a comment line and a comma-free field line is repaired by deleting the comment text alone |
| `Recovery.RepairInsideObject` | app/core/agent.py:127-129 | the repair of `{`, `  // note`, `  "match_score": 80`, `}` keeps the field line and both braces |
| `Recovery.RepairKeepsSkeleton` | app/core/agent.py:127-129 | after comment blanking, the repair changes only commas and whitespace |
| `Recovery.Recover` | app/core/agent.py:113-135 | the reply is parsed first; the fallback runs iff the parse raised a JSON syntax error and a span exists, and it parses the repaired span; any other parse outcome is final; with no span the outcome is the "Could not extract valid JSON" error carrying the first 500 characters |
| `Recovery.RecoverValidJson` | app/core/agent.py:113-116 | a reply that is the JSON form of a result returns that result after a single parse |
| `Recovery.RecoverWrappedObject` | app/core/agent.py:121-131 | a result object wrapped in prose or a code fence is cut out exactly, repaired, and returned |
| `Agent.NamePrompt` | app/core/agent.py:22-28 | the name prompt is the fixed head, exactly the first 500 characters of the job text, and the fixed tail, so it is at most 500 characters longer than the fixed text |
| `Agent.NamePromptIgnoresTail` | app/core/agent.py:27 | job texts that agree on their first 500 characters give the same name prompt |
| `Agent.CleanCompanyName` | app/core/agent.py:30-32 | the cleaned name has no surrounding whitespace, contains no `.`, and is a subsequence of the raw reply |
| `Agent.CleanNameUnchanged` | app/core/agent.py:30-32 | a name that is already clean comes through unchanged |
| `Agent.CleanupCutsInsideNames` | app/core/agent.py:32 | a name with `"is "` anywhere inside it comes out shorter |
| `Agent.CleanLeadInSentence` | app/core/agent.py:30-32 | the sentence "The company name is <name>." gives back the name, for any name the cleanup leaves alone |
| `Agent.AcmeRoboticsSentence` | app/core/agent.py:30-32 | "The company name is Acme Robotics." gives "Acme Robotics" |
| `Agent.GenesisLabsIsAltered` | app/core/agent.py:32 | "Genesis Labs" is altered by the cleanup |
| `Agent.ExtractCompanyName` | app/core/agent.py:20-33 | the name call is a plain completion of the name prompt without JSON mode; a string reply gives the cleaned reply as the name; an error from `generate` propagates; a non-string reply raises; a returned name is stripped and free of `.`; with the Gemini placeholder the name is the cleaned placeholder |
| `Agent.ExtractionOfNonStringReply` | app/core/agent.py:30 | a non-string reply makes the extraction raise, naming the reply's type |
| `Agent.ProfileSummaryOf` | app/core/agent.py:37-47 | the lookup raises `KeyError('short')` iff the summary has no `short` entry; otherwise it carries that entry, the fixed hard filters and the skills |
| `Agent.ProfileJson` | app/core/agent.py:37-49 | the profile JSON is the `json.dumps` text of the summary; a missing `short` entry raises `KeyError('short')`, and a value `json.dumps` cannot serialise raises its `TypeError` |
| `Agent.ResearchBlock` | app/core/agent.py:59 | an empty research context is replaced by "No external research available."; a non-empty one is used as is |
| `Agent.SystemPrompt` | app/core/agent.py:52-100 | the system prompt is non-empty and contains the profile JSON and the research block |
| `Agent.UserPrompt` | app/core/agent.py:102 | the user prompt is `"JOB DESCRIPTION:\n"` followed by exactly the first 6000 characters of the job text |
| `Agent.ErrorResult` | app/core/agent.py:137-144 | a caught exception gives score 0, verdict `ERROR`, empty pros and cons, no filter check, and a summary containing the exception text and the received reply (or "No response") |
| `Agent.Fallback` | app/core/agent.py:113-144 | once `generate` has returned, a string reply gives the result the two-stage reading recovers, or the ERROR result showing the reply and the error; a non-string reply gives the ERROR result for `json.loads`'s `TypeError` |
| `Agent.Analyze` | app/core/agent.py:35-144 | only the two profile-JSON exceptions escape; a request goes out iff the provider is `ollama`, to `/api/chat` in JSON mode with the user prompt; an exception from `generate` gives the ERROR result with "No response"; a returned reply gives the outcome of `Agent.Fallback`, so the result is the ERROR result or the decoding of the last text parsed |
| `Agent.AnalyzeUnknownProvider` | app/core/agent.py:104-144 | with an unknown provider nothing is sent or parsed, and the summary says "No response" |
| `Agent.AnalyzeDirectJson` | app/core/agent.py:114-116 | a valid JSON result is returned unchanged after one parse, with no extraction or repair |
| `Agent.AnalyzeBuildFailure` | app/core/agent.py:114-137 | valid JSON that fails validation goes straight to the ERROR result; the fallback does not run |
| `Agent.AnalyzeInvalidObject` | app/core/agent.py:113-119 | a reply that decodes to an object with a field pydantic rejects ends in the ERROR result carrying the validation error, after a single parse |
| `Agent.AnalyzeNonListPros` | app/core/agent.py:113-119 | a reply decoding to `{"pros": v}` with a non-list `v` ends in the ERROR result whose error names `pros` alone, after a single parse |
| `Agent.AnalyzeNoSpan` | app/core/agent.py:121-144 | when the parse fails and the span regex does not match, the "Could not extract valid JSON" error is caught and the ERROR result shows the whole reply |
| `Agent.AnalysisCallTransportFailure` | app/core/llm.py:83-90 | a transport failure on the analysis call becomes the reply text "Error calling Ollama Chat: " + detail |
| `Agent.AnalyzeTransportFailure` | app/core/agent.py:104-144 | a transport failure never escapes `analyze`: it ends in the ERROR result showing the client's error text |
| `Search.Queries` | app/tools/search.py:15-19 | exactly three queries, in fixed order, each the name followed by a fixed suffix |
| `Search.QueryLines` | app/tools/search.py:29-38 | a query with results gives a header and one line per result in order; no results give no lines; a failure gives one error line |
| `Search.SearchCompanyReputation` | app/tools/search.py:7-43 | an empty name returns `""` without searching; a failing session returns "Error performing search: …" without querying; otherwise three queries are issued, each asking for 3 results |
| `Search.SearchOutputLines` | app/tools/search.py:28-43 | the output is the three queries' line groups, in order, joined by `"\n"` |
| `Search.MaxResultsIgnored` | app/tools/search.py:7-29 | the `max_results` argument has no effect |
| `Search.AllQueriesFail` | app/tools/search.py:36-43 | when every query fails, the output is the three error lines, and later queries still run after a failure |
| `Scraper.KeepChunks` | app/tools/scraper.py:49-50 | every kept chunk is non-empty and stripped, and every piece whose strip is non-empty is kept |
| `Scraper.KeepChunksAppend` | app/tools/scraper.py:49-50 | the pieces are filtered one by one: the chunks of two runs of pieces are the chunks of each, in order |
| `Scraper.KeepChunksNonSpace` | app/tools/scraper.py:49-50 | stripping the pieces and dropping the blank ones loses whitespace only |
| `Scraper.CleanTextKeepsNonSpace` | app/tools/scraper.py:48-50 | the cleanup changes whitespace only: the cleaned text holds exactly the non-space characters of the text, in the same order |
| `Scraper.ChunksGood` | app/tools/scraper.py:48-50 | every chunk is non-empty, stripped, and free of line breaks and double spaces |
| `Scraper.CleanTextLines` | app/tools/scraper.py:50 | the lines of the cleaned text are exactly the chunks: no empty line and no trailing line break |
| `Scraper.CleanTextStripped` | app/tools/scraper.py:50 | the cleaned text has no leading or trailing whitespace |
| `Scraper.ChunksInOrder` | app/tools/scraper.py:48-50 | the chunks keep the text's order and only delete characters |
| `Scraper.CleanTextIdempotent` | app/tools/scraper.py:48-50 | cleaning cleaned text changes nothing |
| `Scraper.ScrapeJobUrl` | app/tools/scraper.py:14-36 | the browser fetch is tried first, and Googlebot only if it fails; the text comes from the first successful page; both failing raise the manual-paste error with the second failure's detail |
| `Scraper.ScrapedTextIsClean` | app/tools/scraper.py:48-50 | whatever page was fetched, the scraped text is stripped and each of its lines is a good chunk |
| `App.Composed` | app/main.py:62 | with a URL, the analysed text is the scraped text, then `"\n\n"`, then the pasted text |
| `App.ResearchFor` | app/main.py:82-87 | the research context is the search output for a name passing the gate, and `""` otherwise |
| `App.StepsAfter` | app/main.py:81-95 | after extraction, research runs exactly for a name passing the gate, and the analysis runs once on the same text with that context |
| `App.AfterExtraction` | app/main.py:93-95 | the page ends on the analysis outcome: the verdict it returned, or the error it raised |
| `App.Process` | app/main.py:76-137 | the name is extracted first; a failed extraction ends the run on that error; research runs iff the extracted name passes the gate |
| `App.AgentInput` | app/main.py:55-67 | without a URL the agent gets the pasted text; with one it gets the composed text, or the scrape's failure |
| `App.Main` | app/main.py:22-95 | a profile failure or an unpressed button runs nothing; empty inputs ask for input and run nothing; with a URL the scrape comes first, a scrape failure stops before any agent step, and a successful scrape is followed by the whole agent run on the composed text; every agent step works on the agent input |
| `App.ScrapedRunAnalysesComposedText` | app/main.py:57-95 | after a successful scrape the agent runs on the scraped text, a blank line and the pasted text |
| `App.ScrapeFailureStops` | app/main.py:64-67 | a failed scrape ends the page with that failure after the scrape step alone |
| `App.SkippedResearchIsEmpty` | app/main.py:82-95 | when the gate rejects the name, the analysis runs with an empty research context |
| `App.UnknownIsPlaceholder` | app/main.py:85 | "Unknown" does not pass the gate |
| `App.ConfidentialIsPlaceholder` | app/main.py:85 | "CONFIDENTIAL" does not pass the gate |
| `App.ClienteFinalIsPlaceholder` | app/main.py:85 | "Cliente Final" does not pass the gate |
| `App.AcmeIsSpecific` | app/main.py:85 | an ordinary name passes the gate |

## Left out

- HTTP, the page fetchers (`primp`, `requests`), BeautifulSoup and the search engine are
  oracles. Their timeouts, headers, redirects and the removal of non-content tags are not
  logic the model can check.
- `json.loads` and pydantic's scalar coercion are oracles (`Recovery.ParseOutcome`,
  `Schema.Coercion`). There is no JSON grammar. The text of a `JSONDecodeError` comes from the
  oracle.
- The `str()` texts of CPython's and pydantic's own exceptions are close approximations. These
  are the `TypeError`, the `AttributeError`, the `KeyError` and the layout of a validation error.
- `json.dumps` of the profile summary is an oracle. It yields the JSON text, or the name of a
  type it cannot serialise. The model fixes only what goes into the summary.
- The prompt wording is a parameter (`Agent.Wording`). The model fixes only what the code
  splices into the prompts.
- The temperature `0.1` is kept as a real constant and never computed with.
- `Text.Lower` lowers ASCII letters only. Python's full Unicode case mapping is not modelled.
- Loading the profile from YAML (app/core/profile.py) is represented by its outcome: a portfolio
  or an error text. So `Portfolio`'s "ignore unknown keys" setting is never exercised.
- `JobOffer` is never constructed by the code. Its defaults are recorded as
  `Models.DefaultJobOffer`, and nothing is stated about them.
- The Gemini API key is read but never used, so no call depends on it.
- The Googlebot fetch yields bytes and the browser fetch yields text. Both are modelled as text.
- Logging, `load_dotenv`, and all Streamlit rendering are left out. This covers the sidebar, the
  preview of the first 500 characters, the status widget and the verdict display.
- The page's sidebar code can also raise into the profile-load handler. The model treats a
  profile load as either succeeding or failing as a whole.
- Search.MaxResultsIgnored: holds by construction, since the limit is never read. Its proof is
  empty, and it documents the unused parameter rather than proving anything about a computation.
- Search.SearchCompanyReputation: the session's `__exit__` is assumed not to raise.

=== FILE: agent.dfy ===
/** `CareerAgent` (app/core/agent.py): the company-name extraction with its cleanup, the analysis
    call with its prompts, and the folding of every failure after the profile lookup into a fixed
    ERROR result. The wording of the two instruction prompts is a parameter; what the code splices
    into them is modelled exactly. */
module Agent {

  import opened Wrappers
  import opened Text
  import opened Json
  import opened Failures
  import opened Models
  import opened Schema
  import opened Llm
  import opened Recovery
  import Search

  /** The fixed instruction text around what the code splices into its two prompts. */
  datatype Wording = Wording(
    nameHead: string,
    nameTail: string,
    systemHead: string,
    systemMiddle: string,
    systemTail: string)

  datatype Agent = Agent(portfolio: Portfolio, client: Config, wording: Wording)

  /** `CareerAgent(portfolio)`: the client reads its configuration here, once. */
  function NewAgent(portfolio: Portfolio, env: map<string, string>, wording: Wording): Agent {
    Agent(portfolio, NewClient(env), wording)
  }

  /** The runtime's oracles: the HTTP round trip, `json.loads`, pydantic's scalar coercion,
      `str()` of a non-string reply, and `json.dumps` of the profile summary, which yields the
      text or the name of a type it cannot serialise. */
  datatype Runtime = Runtime(
    http: Request -> HttpOutcome,
    parse: string -> ParseOutcome,
    coercion: Coercion,
    show: Json -> string,
    dumps: ProfileSummary -> Result<string, string>)

  // ---------------------------------------------------------------------------------------------
  // extract_company_name (lines 20-33)
  // ---------------------------------------------------------------------------------------------

  /** The name prompt carries only the first 500 characters of the job text, between the fixed
      instruction text. */
  function NamePrompt(w: Wording, jobText: string): (p: string)
    ensures |p| == |w.nameHead| + |Take(jobText, 500)| + |w.nameTail|
    ensures |p| <= |w.nameHead| + 500 + |w.nameTail|
    ensures w.nameHead <= p
    ensures p[|w.nameHead|..|p| - |w.nameTail|] == Take(jobText, 500)
    ensures p[|p| - |w.nameTail|..] == w.nameTail
    ensures Contains(p, Take(jobText, 500))
  {
    ContainsMiddle(w.nameHead, Take(jobText, 500), w.nameTail);
    w.nameHead + Take(jobText, 500) + w.nameTail
  }

  /** Nothing past the first 500 characters of the job text reaches the name prompt. */
  lemma NamePromptIgnoresTail(w: Wording, t1: string, t2: string)
    requires |t1| >= 500 && |t2| >= 500 && t1[..500] == t2[..500]
    ensures NamePrompt(w, t1) == NamePrompt(w, t2)
  {
    var p1, p2 := NamePrompt(w, t1), NamePrompt(w, t2);
    assert |p1| == |p2|;
    assert p1[|w.nameHead|..|p1| - |w.nameTail|] == p2[|w.nameHead|..|p2| - |w.nameTail|];
    assert p1 == p1[..|w.nameHead|] + p1[|w.nameHead|..|p1| - |w.nameTail|] + p1[|p1| - |w.nameTail|..];
    assert p2 == p2[..|w.nameHead|] + p2[|w.nameHead|..|p2| - |w.nameTail|] + p2[|p2| - |w.nameTail|..];
  }

  /** The lead-in the cleanup deletes. */
  const LeadIn := "The company name is"

  /** The cleanup chain: strip, delete every "The company name is", every "is ", every ".", strip
      again. Every deletion is global, not only at the front. */
  function CleanCompanyName(raw: string): (name: string)
    ensures IsStripped(name)
    ensures forall i :: 0 <= i < |name| ==> name[i] != '.'
    ensures IsSubsequence(name, raw)
  {
    var a := Strip(raw);
    var b := DeleteAll(a, LeadIn);
    var c := DeleteAll(b, "is ");
    var d := DeleteAll(c, ".");
    var name := Strip(d);
    StripIsSubsequence(raw);
    StripIsSubsequence(d);
    SubsequenceTrans(c, b, a);
    SubsequenceTrans(d, c, a);
    SubsequenceTrans(name, d, a);
    SubsequenceTrans(name, a, raw);
    var lo := SkipSpaces(d, 0);
    assert forall i :: 0 <= i < |name| ==> name[i] == d[lo + i];
    name
  }

  /** A name that is already clean comes through unchanged. */
  lemma CleanNameUnchanged(name: string)
    requires IsStripped(name)
    requires forall i :: 0 <= i < |name| ==> name[i] != '.'
    requires !Contains(name, LeadIn) && !Contains(name, "is ")
    ensures CleanCompanyName(name) == name
  {
    StripStripped(name);
    AvoidsChar(name, '.');
    assert [ '.' ] == ".";
  }

  /** Every deletion is global: a name with "is " anywhere inside it (not only as a lead-in) is
      altered, and comes out shorter. */
  lemma CleanupCutsInsideNames(name: string)
    requires IsStripped(name)
    requires !Contains(name, LeadIn)
    requires Contains(name, "is ")
    ensures |CleanCompanyName(name)| < |name|
  {
    StripStripped(name);
    var c := DeleteAll(name, "is ");
    DeleteAllShrinks(name, "is ");
    var d := DeleteAll(c, ".");
    SubsequenceLength(d, c);
    StripIsSubsequence(d);
    SubsequenceLength(Strip(d), d);
  }

  /** The cleanup as its four steps, for reading off concrete cases. */
  lemma CleanCompanyNameSteps(raw: string, a: string, b: string, c: string, d: string)
    requires Strip(raw) == a
    requires DeleteAll(a, LeadIn) == b
    requires DeleteAll(b, "is ") == c
    requires DeleteAll(c, ".") == d
    ensures CleanCompanyName(raw) == Strip(d)
  {
  }

  /** The sentence the cleanup is written for: "The company name is <name>." gives back the name,
      for any name the cleanup would leave alone. */
  lemma CleanLeadInSentence(name: string)
    requires |name| > 0 && IsStripped(name)
    requires forall i :: 0 <= i < |name| ==> name[i] != '.'
    requires !Contains(name, LeadIn) && !Contains(name, "is ")
    ensures CleanCompanyName(LeadIn + " " + name + ".") == name
  {
    var raw := LeadIn + " " + name + ".";
    var rest := " " + name + ".";
    assert IsStripped(raw);
    StripStripped(raw);
    assert raw == "" + LeadIn + rest;
    DeleteFirstOccurrence("", LeadIn, rest);
    assert rest == [' '] + name + ['.'];
    if Contains(rest, LeadIn) {
      ContainsInside(name, ' ', '.', LeadIn);
    }
    assert DeleteAll(rest, LeadIn) == rest;
    if Contains(rest, "is ") {
      ContainsInside(name, ' ', '.', "is ");
    }
    assert DeleteAll(rest, "is ") == rest;
    var kept := " " + name;
    forall i | 0 <= i < |kept| ensures !OccursAt(kept + "." + "", i, ".") {
      OccursAtChar(kept + "." + "", i, '.');
      assert (kept + "." + "")[i] == kept[i];
    }
    assert rest == kept + "." + "";
    DeleteFirstOccurrence(kept, ".", "");
    assert kept + "" == kept;
    StripLeadingSpace(name);
    CleanCompanyNameSteps(raw, raw, rest, rest, kept);
  }

  /** For instance "The company name is Acme Robotics." gives "Acme Robotics". */
  lemma AcmeRoboticsSentence()
    ensures CleanCompanyName(LeadIn + " Acme Robotics.") == "Acme Robotics"
  {
    var name := "Acme Robotics";
    assert forall k :: 0 <= k && k + 1 < |name| ==> !(name[k] == 'i' && name[k + 1] == 's');
    PairAbsent(name, "is ");
    assert '.' !in name;
    assert LeadIn + " Acme Robotics." == LeadIn + " " + name + ".";
    CleanLeadInSentence(name);
  }

  /** For instance "Genesis Labs", a name the cleanup mangles. */
  lemma GenesisLabsIsAltered()
    ensures CleanCompanyName("Genesis Labs") != "Genesis Labs"
  {
    var s := "Genesis Labs";
    assert s[5..8] == "is ";
    assert OccursAt(s, 5, "is ");
    CleanupCutsInsideNames(s);
  }

  /** `extract_company_name`: the name, or the exception `generate` (or `.strip()` on a reply that
      is not a string) raised; and the request sent, if any. */
  datatype Extraction = Extraction(name: Result<string, Failure>, sent: Option<Request>)

  function ExtractCompanyName(a: Agent, rt: Runtime, jobText: string): (r: Extraction)
    ensures r.sent == Generate(a.client, rt.http, NamePrompt(a.wording, jobText), None, false).sent
    ensures r.sent.Some? ==>
      r.sent.value.payload.body == Completion(NamePrompt(a.wording, jobText))
      && r.sent.value.payload.format == None
    ensures r.name.Ok? ==> IsStripped(r.name.value) && forall i :: 0 <= i < |r.name.value| ==> r.name.value[i] != '.'
    ensures var g := Generate(a.client, rt.http, NamePrompt(a.wording, jobText), None, false);
      && (g.reply.Err? ==> r.name == Err(g.reply.error))
      && (g.reply.Ok? && g.reply.value.JStr? ==> r.name == Ok(CleanCompanyName(g.reply.value.s)))
      && (g.reply.Ok? && !g.reply.value.JStr? ==> r.name.Err?)
    ensures a.client.provider == "gemini" ==> r.name == Ok(CleanCompanyName(GeminiPlaceholder))
  {
    var g := Generate(a.client, rt.http, NamePrompt(a.wording, jobText), None, false);
    match g.reply
    case Err(f) => Extraction(Err(f), g.sent)
    case Ok(JStr(raw)) => Extraction(Ok(CleanCompanyName(raw)), g.sent)
    case Ok(v) => Extraction(Err(NoAttribute(TypeName(v), "strip")), g.sent)
  }

  /** A reply that is not a string (a `null` response field, say) makes the extraction raise, and
      the raised error names the reply's type. */
  lemma ExtractionOfNonStringReply(a: Agent, rt: Runtime, jobText: string, v: Json)
    requires !v.JStr?
    requires Generate(a.client, rt.http, NamePrompt(a.wording, jobText), None, false).reply == Ok(v)
    ensures ExtractCompanyName(a, rt, jobText).name == Err(NoAttribute(TypeName(v), "strip"))
  {
  }

  /** `perform_research`: the reputation search with its default limit argument. */
  function PerformResearch(company: string, session: Search.Session): Search.SearchRun {
    Search.SearchCompanyReputation(company, 5, session)
  }

  // ---------------------------------------------------------------------------------------------
  // analyze (lines 35-144)
  // ---------------------------------------------------------------------------------------------

  /** The profile summary handed to the model as JSON. */
  datatype ProfileSummary = ProfileSummary(
    name: string,
    title: string,
    summary: Json,
    hardFilters: seq<(string, string)>,
    skills: seq<SkillCategory>)

  /** The candidate's hard limits, as fixed strings in the code. */
  const HardFilters := [
    ("salary_min", "52000 EUR"),
    ("remote", "100% Remote required (or very flexible)"),
    ("visa", "Needs Sponsorship (Spain/EU) if not already valid")]

  /** The summary; the lookup of the "short" summary raises `KeyError` when the key is absent. */
  function ProfileSummaryOf(p: Portfolio): (r: Result<ProfileSummary, Failure>)
    ensures r.Err? <==> "short" !in p.professionalSummary
    ensures r.Err? ==> r.error == MissingKey("short")
    ensures r.Ok? ==>
      && r.value.summary == p.professionalSummary["short"]
      && r.value.hardFilters == HardFilters
      && r.value.skills == p.skills
  {
    if "short" in p.professionalSummary then
      Ok(ProfileSummary(p.personalInfo.name, p.personalInfo.title, p.professionalSummary["short"],
                        HardFilters, p.skills))
    else Err(MissingKey("short"))
  }

  const NoResearch := "No external research available."

  /** The research text as spliced into the system prompt: an empty one is replaced by a fixed
      notice. */
  function ResearchBlock(research: string): (block: string)
    ensures |block| > 0
    ensures research != "" ==> block == research
    ensures research == "" ==> block == NoResearch
  {
    if research != "" then research else NoResearch
  }

  /** The system prompt: the profile JSON and the research block spliced into the wording. It is
      never empty, so the analysis always goes to the chat endpoint. */
  function SystemPrompt(w: Wording, profileJson: string, research: string): (p: string)
    ensures |p| > 0
    ensures Contains(p, profileJson) && Contains(p, ResearchBlock(research))
  {
    var block := ResearchBlock(research);
    ContainsMiddle(w.systemHead, profileJson, w.systemMiddle + block + w.systemTail);
    ContainsMiddle(w.systemHead + profileJson + w.systemMiddle, block, w.systemTail);
    assert w.systemHead + profileJson + (w.systemMiddle + block + w.systemTail)
        == w.systemHead + profileJson + w.systemMiddle + block + w.systemTail;
    w.systemHead + profileJson + w.systemMiddle + block + w.systemTail
  }

  const JobHeading := "JOB DESCRIPTION:\n"

  /** The user prompt: the heading, then at most the first 6000 characters of the job text. */
  function UserPrompt(jobText: string): (p: string)
    ensures JobHeading <= p
    ensures p[|JobHeading|..] == Take(jobText, 6000)
    ensures |p| <= |JobHeading| + 6000
  {
    JobHeading + Take(jobText, 6000)
  }

  const ErrorHeading := "**Error de Análisis de IA**:\n\n"
  const DebugHeading := "\n\n**Texto recibido (Debug)**:\n```\n"
  const DebugTail := "\n```"
  const NoResponse := "No response"

  /** The result every caught exception becomes: `received` is the reply text when `generate`
      returned one, None when it raised. */
  function ErrorResult(f: Failure, received: Option<string>): (r: AnalysisResult)
    ensures r.matchScore == 0 && r.verdict == "ERROR"
    ensures r.pros == [] && r.cons == [] && r.hardFilterCheck == None
    ensures r.reasoningSummary.Some?
    ensures Contains(r.reasoningSummary.value, Message(f))
    ensures Contains(r.reasoningSummary.value, received.GetOr(NoResponse))
  {
    var message := Message(f);
    var shown := received.GetOr(NoResponse);
    ContainsBoth(ErrorHeading, message, DebugHeading, shown, DebugTail);
    AnalysisResult(0, "ERROR", Some(ErrorHeading + message + DebugHeading + shown + DebugTail),
                   [], [], None)
  }

  predicate IsErrorResult(r: AnalysisResult) {
    r.matchScore == 0 && r.verdict == "ERROR" && r.pros == [] && r.cons == []
    && r.hardFilterCheck == None
  }

  /** Lines 37-49, before the `try`: the summary, then `json.dumps` of it. Either step may raise,
      and what it raises escapes `analyze`. */
  function ProfileJson(p: Portfolio, dumps: ProfileSummary -> Result<string, string>)
    : (r: Result<string, Failure>)
    ensures "short" !in p.professionalSummary ==> r == Err(MissingKey("short"))
    ensures "short" in p.professionalSummary ==>
      var d := dumps(ProfileSummaryOf(p).value);
      && (d.Ok? ==> r == Ok(d.value))
      && (d.Err? ==> r == Err(NotSerializable(d.error)))
  {
    match ProfileSummaryOf(p)
    case Err(f) => Err(f)
    case Ok(summary) =>
      match dumps(summary)
      case Ok(text) => Ok(text)
      case Err(typeName) => Err(NotSerializable(typeName))
  }

  /** The `generate` call `analyze` makes: the user prompt, the system prompt, JSON mode. */
  function AnalysisCall(a: Agent, rt: Runtime, profileJson: string, jobText: string,
                        research: string): Generation
  {
    Generate(a.client, rt.http, UserPrompt(jobText),
             Some(SystemPrompt(a.wording, profileJson, research)), true)
  }

  /** What the `except` clause makes of the reply once `generate` has returned it: the recovered
      result, or the ERROR result showing the reply. */
  function Fallback(rt: Runtime, reply: Json): (r: Analysis)
    ensures !reply.JStr? ==>
      r.outcome == Ok(ErrorResult(NotJsonText(TypeName(reply)), Some(rt.show(reply))))
      && r.parsed == []
    ensures reply.JStr? ==>
      var rec := Recover(reply.s, rt.parse, rt.coercion);
      && r.parsed == rec.parsed
      && (rec.outcome.Ok? ==> r.outcome == rec.outcome)
      && (rec.outcome.Err? ==> r.outcome == Ok(ErrorResult(rec.outcome.error, Some(reply.s))))
    ensures r.outcome.Ok? && r.sent == None
    ensures IsErrorResult(r.outcome.value)
         || (|r.parsed| > 0 && Decode(r.parsed[|r.parsed| - 1], rt.parse, rt.coercion) == r.outcome)
  {
    match reply
    case JStr(text) =>
      var rec := Recover(text, rt.parse, rt.coercion);
      var result := match rec.outcome
        case Ok(res) => res
        case Err(f) => ErrorResult(f, Some(text));
      Analysis(Ok(result), None, rec.parsed)
    case _ => Analysis(Ok(ErrorResult(NotJsonText(TypeName(reply)), Some(rt.show(reply)))), None, [])
  }

  /** One call of `analyze`: the result (or the exception raised while building the profile JSON,
      before the `try`), the request sent, and the texts handed to `json.loads`. */
  datatype Analysis = Analysis(
    outcome: Result<AnalysisResult, Failure>,
    sent: Option<Request>,
    parsed: seq<string>)

  function Analyze(a: Agent, rt: Runtime, jobText: string, research: string): (r: Analysis)
    ensures r.outcome.Err? <==> ProfileJson(a.portfolio, rt.dumps).Err?
    ensures r.outcome.Err? ==> r == Analysis(Err(ProfileJson(a.portfolio, rt.dumps).error), None, [])
    ensures r.sent.Some? <==> r.outcome.Ok? && a.client.provider == "ollama"
    ensures r.sent.Some? ==>
      && r.sent.value.url == a.client.ollamaBaseUrl + "/api/chat"
      && r.sent.value.payload.format == Some("json")
      && r.sent.value.payload.body.Chat?
      && |r.sent.value.payload.body.messages| == 2
      && r.sent.value.payload.body.messages[1] == ChatMessage("user", UserPrompt(jobText))
    ensures r.outcome.Ok? ==>
      var g := AnalysisCall(a, rt, ProfileJson(a.portfolio, rt.dumps).value, jobText, research);
      && r.sent == g.sent
      && (g.reply.Err? ==> r.outcome == Ok(ErrorResult(g.reply.error, None)) && r.parsed == [])
      && (g.reply.Ok? ==> r.outcome == Fallback(rt, g.reply.value).outcome
                          && r.parsed == Fallback(rt, g.reply.value).parsed)
    ensures r.outcome.Ok? ==>
      || IsErrorResult(r.outcome.value)
      || (|r.parsed| > 0 && Decode(r.parsed[|r.parsed| - 1], rt.parse, rt.coercion) == r.outcome)
  {
    match ProfileJson(a.portfolio, rt.dumps)
    case Err(f) => Analysis(Err(f), None, [])
    case Ok(profileJson) =>
      var g := AnalysisCall(a, rt, profileJson, jobText, research);
      match g.reply
      case Err(f) => Analysis(Ok(ErrorResult(f, None)), g.sent, [])
      case Ok(v) =>
        var fb := Fallback(rt, v);
        Analysis(fb.outcome, g.sent, fb.parsed)
  }

  /** With an unknown provider nothing is sent, nothing is parsed, and the ERROR result carries the
      provider error and "No response". */
  lemma AnalyzeUnknownProvider(a: Agent, rt: Runtime, jobText: string, research: string)
    requires ProfileJson(a.portfolio, rt.dumps).Ok?
    requires a.client.provider != "ollama" && a.client.provider != "gemini"
    ensures var r := Analyze(a, rt, jobText, research);
      && r.outcome == Ok(ErrorResult(UnknownProvider(a.client.provider), None))
      && r.sent == None && r.parsed == []
      && Contains(r.outcome.value.reasoningSummary.value, NoResponse)
  {
  }

  /** A reply that is already the JSON form of a result is returned as that result, parsed once,
      with no extraction or repair. */
  lemma AnalyzeDirectJson(a: Agent, rt: Runtime, jobText: string, research: string, text: string,
                          result: AnalysisResult)
    requires ProfileJson(a.portfolio, rt.dumps).Ok?
    requires AnalysisCall(a, rt, ProfileJson(a.portfolio, rt.dumps).value, jobText, research).reply
             == Ok(JStr(text))
    requires Faithful(rt.coercion)
    requires rt.parse(text) == Parsed(ToJson(result))
    ensures Analyze(a, rt, jobText, research).outcome == Ok(result)
    ensures Analyze(a, rt, jobText, research).parsed == [text]
  {
    RecoverValidJson(text, result, rt.parse, rt.coercion);
  }

  /** Valid JSON that does not build a result goes straight to the ERROR result, carrying the
      build error and the reply; the fallback does not run. */
  lemma AnalyzeBuildFailure(a: Agent, rt: Runtime, jobText: string, research: string, text: string,
                            data: Json, f: Failure)
    requires ProfileJson(a.portfolio, rt.dumps).Ok?
    requires AnalysisCall(a, rt, ProfileJson(a.portfolio, rt.dumps).value, jobText, research).reply
             == Ok(JStr(text))
    requires rt.parse(text) == Parsed(data)
    requires Build(data, rt.coercion) == Err(f)
    ensures Analyze(a, rt, jobText, research).outcome == Ok(ErrorResult(f, Some(text)))
    ensures Analyze(a, rt, jobText, research).parsed == [text]
  {
  }

  /** A reply that decodes to an object with a field pydantic rejects ends in the ERROR result after
      a single parse, carrying the validation error. */
  lemma AnalyzeInvalidObject(a: Agent, rt: Runtime, jobText: string, research: string, text: string,
                             m: map<string, Json>)
    requires ProfileJson(a.portfolio, rt.dumps).Ok?
    requires AnalysisCall(a, rt, ProfileJson(a.portfolio, rt.dumps).value, jobText, research).reply
             == Ok(JStr(text))
    requires rt.parse(text) == Parsed(JObject(m))
    requires !Validates(m, rt.coercion)
    ensures var b := Build(JObject(m), rt.coercion);
      && b.Err? && b.error.ValidationError?
      && Analyze(a, rt, jobText, research).outcome == Ok(ErrorResult(b.error, Some(text)))
      && Analyze(a, rt, jobText, research).outcome.value.verdict == "ERROR"
      && Analyze(a, rt, jobText, research).parsed == [text]
  {
    AnalyzeBuildFailure(a, rt, jobText, research, text, JObject(m), Build(JObject(m), rt.coercion).error);
  }

  /** `{"pros": v}` with a `v` that is not a list: the reply is valid JSON, the validation error
      names `pros` alone, and the fallback does not run. */
  lemma AnalyzeNonListPros(a: Agent, rt: Runtime, jobText: string, research: string, text: string,
                           v: Json)
    requires ProfileJson(a.portfolio, rt.dumps).Ok?
    requires AnalysisCall(a, rt, ProfileJson(a.portfolio, rt.dumps).value, jobText, research).reply
             == Ok(JStr(text))
    requires rt.parse(text) == Parsed(JObject(map["pros" := v]))
    requires !v.JArray?
    ensures Analyze(a, rt, jobText, research).outcome
         == Ok(ErrorResult(ValidationError("AnalysisResult", [FieldError("pros", NotAList)]), Some(text)))
    ensures Analyze(a, rt, jobText, research).parsed == [text]
  {
    var f := ValidationError("AnalysisResult", [FieldError("pros", NotAList)]);
    BuildNonListPros(v, rt.coercion);
    AnalyzeBuildFailure(a, rt, jobText, research, text, JObject(map["pros" := v]), f);
  }

  /** A reply without a JSON span: the `ValueError` with the first 500 characters is caught, and
      the ERROR result shows it together with the whole reply. */
  lemma AnalyzeNoSpan(a: Agent, rt: Runtime, jobText: string, research: string, text: string)
    requires ProfileJson(a.portfolio, rt.dumps).Ok?
    requires AnalysisCall(a, rt, ProfileJson(a.portfolio, rt.dumps).value, jobText, research).reply
             == Ok(JStr(text))
    requires rt.parse(text).DecodeError?
    requires FindSpan(text).None?
    ensures var r := Analyze(a, rt, jobText, research);
      && r.outcome == Ok(ErrorResult(NoJsonFound(Take(text, 500)), Some(text)))
      && r.parsed == [text]
      && Contains(r.outcome.value.reasoningSummary.value, text)
  {
    assert Recover(text, rt.parse, rt.coercion) == Recovery(Err(NoJsonFound(Take(text, 500))), [text]);
  }

  /** A transport failure never escapes the client: its error text becomes the reply. */
  lemma AnalysisCallTransportFailure(a: Agent, rt: Runtime, profileJson: string,
                                     jobText: string, research: string, detail: string)
    requires a.client.provider == "ollama"
    requires forall req :: rt.http(req) == Failed(detail)
    ensures AnalysisCall(a, rt, profileJson, jobText, research).reply
         == Ok(JStr("Error calling Ollama Chat: " + detail))
  {
    var system := SystemPrompt(a.wording, profileJson, research);
    assert HasSystemPrompt(Some(system));
    var g := CallOllama(a.client, rt.http, UserPrompt(jobText), Some(system), true);
    assert rt.http(g.sent.value) == Failed(detail);
  }

  lemma ChatPrefixHasNoBrace()
    ensures forall i :: 0 <= i < |ErrorPrefix(true)| ==> ErrorPrefix(true)[i] != '{'
  {
  }

  lemma NoBraceConcat(x: string, y: string)
    requires forall i :: 0 <= i < |x| ==> x[i] != '{'
    requires forall i :: 0 <= i < |y| ==> y[i] != '{'
    ensures forall i :: 0 <= i < |x + y| ==> (x + y)[i] != '{'
  {
    forall i | 0 <= i < |x + y| ensures (x + y)[i] != '{' {
      if i >= |x| { assert (x + y)[i] == y[i - |x|]; }
    }
  }

  /** When the client's error text holds no JSON span, the analysis is the ERROR result that shows
      it. */
  lemma AnalyzeTransportFailure(a: Agent, rt: Runtime, jobText: string, research: string,
                                detail: string)
    requires ProfileJson(a.portfolio, rt.dumps).Ok?
    requires a.client.provider == "ollama"
    requires forall req :: rt.http(req) == Failed(detail)
    requires forall i :: 0 <= i < |detail| ==> detail[i] != '{'
    requires rt.parse("Error calling Ollama Chat: " + detail).DecodeError?
    ensures var text := "Error calling Ollama Chat: " + detail;
      var r := Analyze(a, rt, jobText, research);
      && r.outcome == Ok(ErrorResult(NoJsonFound(Take(text, 500)), Some(text)))
      && r.parsed == [text]
  {
    var prefix := "Error calling Ollama Chat: ";
    AnalysisCallTransportFailure(a, rt, ProfileJson(a.portfolio, rt.dumps).value, jobText, research,
                                 detail);
    ChatPrefixHasNoBrace();
    NoBraceConcat(prefix, detail);
    assert FirstIndex(prefix + detail, '{', 0).None?;
    AnalyzeNoSpan(a, rt, jobText, research, prefix + detail);
  }
}

=== FILE: app.dfy ===
/** The Streamlit page (app/main.py) as a pure function of its inputs: the profile load, the two
    input fields and the button, the scraped text composed with the pasted text, the company-name
    gate in front of the web research, and the final analysis. What it records is the screen it
    ends on and the pipeline steps it ran, in order; rendering is left out. */
module App {

  import opened Wrappers
  import opened Text
  import opened Failures
  import opened Models
  import opened Agent
  import Scraper
  import Search

  /** A pipeline step, with the input it was run on. */
  datatype Step =
    | Scraped(url: string)
    | NameExtracted(text: string)
    | Researched(company: string)
    | Analysed(text: string, research: string)

  /** Where the page ends up. */
  datatype Screen =
    | ProfileLoadFailed(detail: string)
    | Idle
    | AskForInput
    | ScrapeFailed(failure: Failure)
    | AgentFailed(failure: Failure)
    | Verdict(result: AnalysisResult)

  datatype Run = Run(screen: Screen, steps: seq<Step>)

  /** Everything outside the page: the outcome of loading the profile, the environment, the prompt
      wording, the agent's oracles, the web and the search engine. */
  datatype World = World(
    portfolio: Result<Portfolio, string>,
    env: map<string, string>,
    wording: Wording,
    rt: Runtime,
    web: Scraper.Web,
    search: Search.Session)

  /** The placeholder names the model gives when it finds no company. */
  const Placeholders := ["unknown", "confidential", "cliente final"]

  /** The gate: a non-empty name whose lower-case form is no placeholder. */
  predicate IsSpecificName(name: string) {
    name != "" && Lower(name) !in Placeholders
  }

  /** The text analysed when a URL was given: the scraped text, a blank line, the pasted text. */
  function Composed(scraped: string, pasted: string): (t: string)
    ensures |t| == |scraped| + 2 + |pasted|
    ensures scraped <= t && t[|scraped|..|scraped| + 2] == "\n\n" && t[|scraped| + 2..] == pasted
  {
    scraped + "\n\n" + pasted
  }

  /** The name the agent extracts from a text, as the page sees it. */
  function ExtractedName(w: World, p: Portfolio, text: string): Result<string, Failure> {
    ExtractCompanyName(NewAgent(p, w.env, w.wording), w.rt, text).name
  }

  /** The research context: the search output for a specific name, "" otherwise. */
  function ResearchFor(w: World, name: string): (research: string)
    ensures !IsSpecificName(name) ==> research == ""
    ensures IsSpecificName(name) ==> research == PerformResearch(name, w.search).output
  {
    if IsSpecificName(name) then PerformResearch(name, w.search).output else ""
  }

  /** The steps run once a name is extracted: the gated research, then the analysis. */
  function StepsAfter(w: World, text: string, name: string): (steps: seq<Step>)
    ensures |steps| >= 2 && steps[0] == NameExtracted(text)
    ensures forall t :: NameExtracted(t) in steps ==> t == text
    ensures forall c :: Researched(c) in steps <==> c == name && IsSpecificName(name)
    ensures forall t, research :: Analysed(t, research) in steps <==>
      t == text && research == ResearchFor(w, name)
  {
    var research := ResearchFor(w, name);
    if IsSpecificName(name) then [NameExtracted(text), Researched(name), Analysed(text, research)]
    else [NameExtracted(text), Analysed(text, research)]
  }

  /** Lines 82-95, once a name is extracted: the gated research, then the analysis. */
  function AfterExtraction(w: World, agent: Agent, text: string, name: string): (r: Run)
    ensures r.steps == StepsAfter(w, text, name)
    ensures r.screen.AgentFailed? || r.screen.Verdict?
    ensures r.screen.Verdict? ==>
      Analyze(agent, w.rt, text, ResearchFor(w, name)).outcome == Ok(r.screen.result)
    ensures r.screen.AgentFailed? ==>
      Analyze(agent, w.rt, text, ResearchFor(w, name)).outcome == Err(r.screen.failure)
  {
    match Analyze(agent, w.rt, text, ResearchFor(w, name)).outcome
    case Err(f) => Run(AgentFailed(f), StepsAfter(w, text, name))
    case Ok(result) => Run(Verdict(result), StepsAfter(w, text, name))
  }

  /** Lines 76-137: extraction, the gated research, the analysis; any exception the agent raises
      ends the run on the agent error. */
  function Process(w: World, p: Portfolio, text: string): (r: Run)
    ensures |r.steps| >= 1 && r.steps[0] == NameExtracted(text)
    ensures r.screen.AgentFailed? || r.screen.Verdict?
    ensures ExtractedName(w, p, text).Err? ==>
      r == Run(AgentFailed(ExtractedName(w, p, text).error), [NameExtracted(text)])
    ensures ExtractedName(w, p, text).Ok? ==>
      r == AfterExtraction(w, NewAgent(p, w.env, w.wording), text, ExtractedName(w, p, text).value)
    ensures forall t :: NameExtracted(t) in r.steps ==> t == text
    ensures forall c :: Researched(c) in r.steps <==>
      ExtractedName(w, p, text) == Ok(c) && IsSpecificName(c)
    ensures forall t, research :: Analysed(t, research) in r.steps ==> t == text
  {
    match ExtractedName(w, p, text)
    case Err(f) => Run(AgentFailed(f), [NameExtracted(text)])
    case Ok(name) => AfterExtraction(w, NewAgent(p, w.env, w.wording), text, name)
  }

  /** The text the agent is given (lines 55-62): the pasted text without a URL; with one, the
      scraped text composed with the pasted text, or the scrape's failure. */
  function AgentInput(web: Scraper.Web, url: string, pasted: string): (r: Result<string, Failure>)
    ensures url == "" ==> r == Ok(pasted)
    ensures url != "" ==>
      && (r.Err? <==> Scraper.ScrapeJobUrl(url, web).text.Err?)
      && (r.Err? ==> r.error == Scraper.ScrapeJobUrl(url, web).text.error)
      && (r.Ok? ==> r.value == Composed(Scraper.ScrapeJobUrl(url, web).text.value, pasted))
  {
    if url == "" then Ok(pasted)
    else
      match Scraper.ScrapeJobUrl(url, web).text
      case Err(f) => Err(f)
      case Ok(scraped) => Ok(Composed(scraped, pasted))
  }

  /** One run of `main`: the profile load, then, once the button is pressed, the input check, the
      scrape when a URL is given, and the agent. */
  function Main(w: World, url: string, pasted: string, pressed: bool): (r: Run)
    ensures w.portfolio.Err? ==> r == Run(ProfileLoadFailed(w.portfolio.error), [])
    ensures w.portfolio.Ok? && !pressed ==> r == Run(Idle, [])
    ensures w.portfolio.Ok? && pressed && url == "" && pasted == "" ==> r == Run(AskForInput, [])
    ensures url == "" && pasted != "" && w.portfolio.Ok? && pressed ==>
      r == Process(w, w.portfolio.value, pasted)
    ensures url != "" && w.portfolio.Ok? && pressed ==>
      |r.steps| >= 1 && r.steps[0] == Scraped(url)
    ensures url != "" && w.portfolio.Ok? && pressed && AgentInput(w.web, url, pasted).Ok? ==>
      var p := Process(w, w.portfolio.value, AgentInput(w.web, url, pasted).value);
      r == Run(p.screen, [Scraped(url)] + p.steps)
    ensures url != "" && w.portfolio.Ok? && pressed && AgentInput(w.web, url, pasted).Err? ==>
      r == Run(ScrapeFailed(AgentInput(w.web, url, pasted).error), [Scraped(url)])
    ensures r.screen.ScrapeFailed? ==>
      && url != ""
      && r.steps == [Scraped(url)]
      && Scraper.ScrapeJobUrl(url, w.web).text == Err(r.screen.failure)
    ensures forall t :: NameExtracted(t) in r.steps ==> AgentInput(w.web, url, pasted) == Ok(t)
    ensures forall t, research :: Analysed(t, research) in r.steps ==>
      AgentInput(w.web, url, pasted) == Ok(t)
  {
    match w.portfolio
    case Err(detail) => Run(ProfileLoadFailed(detail), [])
    case Ok(p) =>
      if !pressed then Run(Idle, [])
      else if pasted == "" && url == "" then Run(AskForInput, [])
      else
        match AgentInput(w.web, url, pasted)
        case Err(f) => Run(ScrapeFailed(f), [Scraped(url)])
        case Ok(text) =>
          var r := Process(w, p, text);
          if url == "" then r else Run(r.screen, [Scraped(url)] + r.steps)
  }

  /** A failed scrape stops the page before any agent step. */
  lemma ScrapeFailureStops(w: World, url: string, pasted: string)
    requires w.portfolio.Ok? && url != ""
    requires Scraper.ScrapeJobUrl(url, w.web).text.Err?
    ensures Main(w, url, pasted, true)
         == Run(ScrapeFailed(Scraper.ScrapeJobUrl(url, w.web).text.error), [Scraped(url)])
  {
  }

  /** After a successful scrape the agent runs on the scraped text, a blank line and the pasted
      text, and the scrape comes first in the trace. */
  lemma ScrapedRunAnalysesComposedText(w: World, url: string, pasted: string, scraped: string)
    requires w.portfolio.Ok? && url != ""
    requires Scraper.ScrapeJobUrl(url, w.web).text == Ok(scraped)
    ensures var p := Process(w, w.portfolio.value, Composed(scraped, pasted));
      Main(w, url, pasted, true) == Run(p.screen, [Scraped(url)] + p.steps)
  {
  }

  /** Skipped research leaves the research context empty in the analysis. */
  lemma SkippedResearchIsEmpty(w: World, text: string, name: string)
    requires !IsSpecificName(name)
    ensures StepsAfter(w, text, name) == [NameExtracted(text), Analysed(text, "")]
  {
  }

  /** `Lower(s)` is `t` when `t` is `s` with its letters lowered. */
  lemma LowersTo(s: string, t: string)
    requires |s| == |t| && forall i :: 0 <= i < |s| ==> LowerChar(s[i]) == t[i]
    ensures Lower(s) == t
  {
  }

  /** The gate compares case-insensitively against the placeholders. */
  lemma UnknownIsPlaceholder()
    ensures !IsSpecificName("Unknown")
  {
    LowersTo("Unknown", "unknown");
  }

  lemma ConfidentialIsPlaceholder()
    ensures !IsSpecificName("CONFIDENTIAL")
  {
    LowersTo("CONFIDENTIAL", "confidential");
  }

  lemma ClienteFinalIsPlaceholder()
    ensures !IsSpecificName("Cliente Final")
  {
    LowersTo("Cliente Final", "cliente final");
  }

  /** A real name passes the gate: its lower-case form has the wrong length for a placeholder. */
  lemma AcmeIsSpecific()
    ensures IsSpecificName("Acme")
  {
    assert |Lower("Acme")| == 4;
  }
}

=== FILE: failures.dfy ===
/** The exceptions the core raises or catches, as values, and the text `str(e)` gives for each. */
module Failures {

  import opened Text

  /** One entry of a pydantic validation error: the dotted field location and the reason. */
  datatype FieldError = FieldError(loc: string, msg: string)

  datatype Failure =
    /** `ValueError` for a provider tag other than "ollama" and "gemini" (app/core/llm.py:26). */
    | UnknownProvider(provider: string)
    /** `json.JSONDecodeError`: the text is not JSON; the detail is the decoder's own message. */
    | JsonDecodeError(detail: string)
    /** Any other exception `json.loads` raises on a string (a `RecursionError` on very deep
        nesting, for instance). */
    | JsonCrashed(detail: string)
    /** `TypeError`: `json.loads` was handed a value that is not a string. */
    | NotJsonText(typeName: string)
    /** `TypeError`: `AnalysisResult(**data)` with `data` not a mapping. */
    | NotMapping(typeName: string)
    /** pydantic's `ValidationError`: every failing field, in declaration order. */
    | ValidationError(model: string, errors: seq<FieldError>)
    /** The `ValueError` the agent raises when no JSON span is found (app/core/agent.py:135). */
    | NoJsonFound(preview: string)
    /** `TypeError`: `json.dumps` met a value of a type it cannot serialise. */
    | NotSerializable(typeName: string)
    /** `KeyError` on a dictionary lookup. */
    | MissingKey(key: string)
    /** `AttributeError`: a method called on a value of the wrong type. */
    | NoAttribute(typeName: string, attr: string)
    /** The `ValueError` the scraper raises when both fetch attempts fail
        (app/tools/scraper.py:34-36); the detail is the second attempt's error. */
    | UrlUnreachable(detail: string)

  /** The text `str(e)` yields for the exception. */
  function Message(f: Failure): string {
    match f
    case UnknownProvider(p) => "Unknown LLM Provider: " + p
    case JsonDecodeError(d) => d
    case JsonCrashed(d) => d
    case NotJsonText(t) => "the JSON object must be str, bytes or bytearray, not " + t
    case NotMapping(t) => "app.core.models.AnalysisResult() argument after ** must be a mapping, not " + t
    case ValidationError(model, errors) =>
      NatToString(|errors|) + " validation error" + (if |errors| == 1 then "" else "s")
      + " for " + model + ErrorLines(errors)
    case NoJsonFound(preview) => "Could not extract valid JSON. Raw text: " + preview + "..."
    case NotSerializable(t) => "Object of type " + t + " is not JSON serializable"
    case MissingKey(k) => "'" + k + "'"
    case NoAttribute(t, a) => "'" + t + "' object has no attribute '" + a + "'"
    case UrlUnreachable(d) =>
      "Unable to access URL (Protected by WAF/Cloudflare). Please copy/paste the job description "
      + "text manually.\nDetails: " + d
  }

  function ErrorLines(errors: seq<FieldError>): string {
    if |errors| == 0 then ""
    else "\n" + errors[0].loc + "\n  " + errors[0].msg + ErrorLines(errors[1..])
  }
}

=== FILE: json.dfy ===
/** The values `json.loads` produces, as far as the core inspects them. */
module Json {

  /** A decoded JSON document. Numbers with a fraction or an exponent become Python floats; the
      model keeps only their source text, since nothing in the core computes with them. */
  datatype Json =
    | JNull
    | JBool(b: bool)
    | JInt(i: int)
    | JFloat(text: string)
    | JStr(s: string)
    | JArray(items: seq<Json>)
    | JObject(fields: map<string, Json>)

  /** The name of the Python type `json.loads` builds for the value, as Python's own error
      messages print it. */
  function TypeName(j: Json): string {
    match j
    case JNull => "NoneType"
    case JBool(_) => "bool"
    case JInt(_) => "int"
    case JFloat(_) => "float"
    case JStr(_) => "str"
    case JArray(_) => "list"
    case JObject(_) => "dict"
  }
}

=== FILE: llm.dfy ===
/** `LLMClient` (app/core/llm.py): configuration read once from the environment, dispatch on the
    provider tag, the two Ollama wire calls and the folding of every transport failure into
    reply text. The HTTP round trip (`requests.post`, `raise_for_status`, `response.json()`) is
    an oracle that either yields the decoded body or fails with the exception's text. */
module Llm {

  import opened Wrappers
  import opened Json
  import opened Failures

  /** The client's configuration. `geminiKey` is read but never used by any call. */
  datatype Config = Config(
    provider: string,
    ollamaBaseUrl: string,
    ollamaModel: string,
    geminiKey: Option<string>)

  /** `os.getenv(key, default)` over a snapshot of the process environment. */
  function GetEnv(env: map<string, string>, key: string, default: string): string {
    if key in env then env[key] else default
  }

  /** `LLMClient.__init__`. Later calls see only this value, never the environment. */
  function NewClient(env: map<string, string>): Config {
    Config(
      GetEnv(env, "LLM_PROVIDER", "ollama"),
      GetEnv(env, "OLLAMA_BASE_URL", "http://localhost:11434"),
      GetEnv(env, "OLLAMA_MODEL", "llama3"),
      if "GEMINI_API_KEY" in env then Some(env["GEMINI_API_KEY"]) else None)
  }

  /** Unset variables fall back to the local Ollama defaults; set ones are taken verbatim, even
      when empty. */
  lemma NewClientDefaults(env: map<string, string>)
    ensures "LLM_PROVIDER" !in env ==> NewClient(env).provider == "ollama"
    ensures "OLLAMA_BASE_URL" !in env ==> NewClient(env).ollamaBaseUrl == "http://localhost:11434"
    ensures "OLLAMA_MODEL" !in env ==> NewClient(env).ollamaModel == "llama3"
    ensures "LLM_PROVIDER" in env ==> NewClient(env).provider == env["LLM_PROVIDER"]
    ensures "OLLAMA_BASE_URL" in env ==> NewClient(env).ollamaBaseUrl == env["OLLAMA_BASE_URL"]
    ensures "OLLAMA_MODEL" in env ==> NewClient(env).ollamaModel == env["OLLAMA_MODEL"]
  {
  }

  // ---------------------------------------------------------------------------------------------
  // Wire format
  // ---------------------------------------------------------------------------------------------

  datatype ChatMessage = ChatMessage(role: string, content: string)

  /** `/api/generate` carries one prompt, `/api/chat` a list of messages. */
  datatype Body = Completion(prompt: string) | Chat(messages: seq<ChatMessage>)

  /** The fixed generation options. The temperature is the float literal 0.1, kept as a real. */
  datatype Options = Options(numCtx: int, temperature: real, numGpu: int, numPredict: int)

  const FixedOptions := Options(8192, 0.1, 999, 2048)

  const TimeoutSeconds := 120

  datatype Payload = Payload(
    model: string,
    body: Body,
    stream: bool,
    options: Options,
    format: Option<string>)

  datatype Request = Request(url: string, payload: Payload, timeout: int)

  /** What the HTTP round trip yields: the decoded JSON body, or the text of the exception that
      `requests.post`, `raise_for_status()` or `response.json()` raised. */
  datatype HttpOutcome = Response(body: Json) | Failed(detail: string)

  /** Python truthiness of `system_prompt`: neither None nor the empty string. */
  predicate HasSystemPrompt(systemPrompt: Option<string>) {
    systemPrompt.Some? && systemPrompt.value != ""
  }

  /** The request `_call_ollama` sends, or `_call_ollama_chat` when a system prompt is given. */
  function OllamaRequest(c: Config, prompt: string, systemPrompt: Option<string>, jsonMode: bool)
    : (r: Request)
    ensures r.payload.model == c.ollamaModel && !r.payload.stream
    ensures r.payload.options == FixedOptions && r.timeout == TimeoutSeconds
    ensures r.payload.format.Some? <==> jsonMode
    ensures r.payload.format.Some? ==> r.payload.format.value == "json"
    ensures r.payload.body.Chat? <==> HasSystemPrompt(systemPrompt)
    ensures r.payload.body.Chat? ==>
      && r.url == c.ollamaBaseUrl + "/api/chat"
      && r.payload.body.messages
         == [ChatMessage("system", systemPrompt.value), ChatMessage("user", prompt)]
    ensures r.payload.body.Completion? ==>
      r.url == c.ollamaBaseUrl + "/api/generate" && r.payload.body.prompt == prompt
  {
    var format := if jsonMode then Some("json") else None;
    if HasSystemPrompt(systemPrompt) then
      Request(c.ollamaBaseUrl + "/api/chat",
              Payload(c.ollamaModel,
                      Chat([ChatMessage("system", systemPrompt.value), ChatMessage("user", prompt)]),
                      false, FixedOptions, format),
              TimeoutSeconds)
    else
      Request(c.ollamaBaseUrl + "/api/generate",
              Payload(c.ollamaModel, Completion(prompt), false, FixedOptions, format),
              TimeoutSeconds)
  }

  /** What a request asks for: the user prompt, the system prompt, and whether JSON is demanded.
      This reads a request the way the server does. */
  function Asked(r: Request): (string, Option<string>, bool) {
    var json := r.payload.format == Some("json");
    match r.payload.body
    case Completion(p) => (p, None, json)
    case Chat(messages) =>
      if |messages| == 2 && messages[0].role == "system" && messages[1].role == "user" then
        (messages[1].content, Some(messages[0].content), json)
      else ("", None, json)
  }

  /** The request carries exactly the caller's inputs: the prompt, the system prompt when it is
      truthy (a falsy one is not sent at all), and the JSON flag. */
  lemma AskedOllamaRequest(c: Config, prompt: string, systemPrompt: Option<string>, jsonMode: bool)
    ensures Asked(OllamaRequest(c, prompt, systemPrompt, jsonMode))
         == (prompt, if HasSystemPrompt(systemPrompt) then systemPrompt else None, jsonMode)
  {
  }

  // ---------------------------------------------------------------------------------------------
  // Reading the reply
  // ---------------------------------------------------------------------------------------------

  /** `data.get("response", "")`: whatever value the key holds, "" when it is missing; a body that
      is not an object has no `get` and raises. */
  function CompletionField(body: Json): (r: Result<Json, Failure>)
    ensures body.JObject? && "response" in body.fields ==> r == Ok(body.fields["response"])
    ensures body.JObject? && "response" !in body.fields ==> r == Ok(JStr(""))
    ensures !body.JObject? ==> r == Err(NoAttribute(TypeName(body), "get"))
  {
    match body
    case JObject(m) => Ok(if "response" in m then m["response"] else JStr(""))
    case _ => Err(NoAttribute(TypeName(body), "get"))
  }

  /** `data.get("message", {}).get("content", "")`. */
  function ChatField(body: Json): (r: Result<Json, Failure>)
    ensures (body.JObject? && "message" in body.fields && body.fields["message"].JObject?
             && "content" in body.fields["message"].fields)
            ==> r == Ok(body.fields["message"].fields["content"])
    ensures body.JObject? && "message" !in body.fields ==> r == Ok(JStr(""))
    ensures (body.JObject? && "message" in body.fields && body.fields["message"].JObject?
             && "content" !in body.fields["message"].fields) ==> r == Ok(JStr(""))
    ensures (body.JObject? && "message" in body.fields && !body.fields["message"].JObject?)
            ==> r == Err(NoAttribute(TypeName(body.fields["message"]), "get"))
    ensures !body.JObject? ==> r == Err(NoAttribute(TypeName(body), "get"))
  {
    match body
    case JObject(m) =>
      var message := if "message" in m then m["message"] else JObject(map[]);
      (match message
       case JObject(mm) => Ok(if "content" in mm then mm["content"] else JStr(""))
       case _ => Err(NoAttribute(TypeName(message), "get")))
    case _ => Err(NoAttribute(TypeName(body), "get"))
  }

  /** One call of `generate`: the value returned (or the exception raised) and the request sent,
      if any. The value is whatever JSON value the reply field held: normally a string. */
  datatype Generation = Generation(reply: Result<Json, Failure>, sent: Option<Request>)

  const GeminiPlaceholder := "Gemini support not fully implemented yet."

  function ErrorPrefix(chat: bool): string {
    if chat then "Error calling Ollama Chat: " else "Error calling Ollama: "
  }

  /** The field the endpoint's body is read from: `/api/chat` for a chat call, `/api/generate`
      otherwise. */
  function ReplyField(chat: bool, body: Json): Result<Json, Failure> {
    if chat then ChatField(body) else CompletionField(body)
  }

  /** `_call_ollama` (and `_call_ollama_chat` behind it): every exception inside the `try` becomes
      the returned text `"Error calling Ollama[ Chat]: " + str(e)`; nothing escapes. */
  function CallOllama(c: Config, http: Request -> HttpOutcome, prompt: string,
                      systemPrompt: Option<string>, jsonMode: bool): (g: Generation)
    ensures g.sent == Some(OllamaRequest(c, prompt, systemPrompt, jsonMode))
    ensures g.reply.Ok?
    ensures http(g.sent.value).Failed? ==>
      g.reply.value == JStr(ErrorPrefix(HasSystemPrompt(systemPrompt)) + http(g.sent.value).detail)
    ensures http(g.sent.value).Response? ==>
      var field := ReplyField(HasSystemPrompt(systemPrompt), http(g.sent.value).body);
      && (field.Ok? ==> g.reply == field)
      && (field.Err? ==>
            g.reply == Ok(JStr(ErrorPrefix(HasSystemPrompt(systemPrompt)) + Message(field.error))))
  {
    var request := OllamaRequest(c, prompt, systemPrompt, jsonMode);
    var chat := HasSystemPrompt(systemPrompt);
    var reply :=
      match http(request)
      case Failed(detail) => JStr(ErrorPrefix(chat) + detail)
      case Response(body) =>
        match ReplyField(chat, body)
        case Ok(v) => v
        case Err(e) => JStr(ErrorPrefix(chat) + Message(e));
    Generation(Ok(reply), Some(request))
  }

  /** `LLMClient.generate`: dispatch on the configured provider tag. */
  function Generate(c: Config, http: Request -> HttpOutcome, prompt: string,
                    systemPrompt: Option<string>, jsonMode: bool): (g: Generation)
    ensures g.sent.Some? <==> c.provider == "ollama"
    ensures g.reply.Err? <==> c.provider != "ollama" && c.provider != "gemini"
    ensures g.reply.Err? ==> g.reply.error == UnknownProvider(c.provider)
    ensures c.provider == "gemini" ==> g.reply == Ok(JStr(GeminiPlaceholder))
    ensures c.provider == "ollama" ==> g == CallOllama(c, http, prompt, systemPrompt, jsonMode)
  {
    if c.provider == "ollama" then CallOllama(c, http, prompt, systemPrompt, jsonMode)
    else if c.provider == "gemini" then Generation(Ok(JStr(GeminiPlaceholder)), None)
    else Generation(Err(UnknownProvider(c.provider)), None)
  }

  /** `generate` without a system prompt returns the server's `response` field as it is. */
  lemma CompletionReplyIsResponseField(c: Config, http: Request -> HttpOutcome, prompt: string,
                                       jsonMode: bool, body: Json)
    requires c.provider == "ollama"
    requires http(OllamaRequest(c, prompt, None, jsonMode)) == Response(body)
    requires body.JObject? && "response" in body.fields
    ensures Generate(c, http, prompt, None, jsonMode).reply == Ok(body.fields["response"])
  {
  }

  /** `generate` with a system prompt returns the server's `message.content` field as it is. */
  lemma ChatReplyIsMessageContent(c: Config, http: Request -> HttpOutcome, prompt: string,
                                  system: string, jsonMode: bool, body: Json)
    requires c.provider == "ollama" && system != ""
    requires http(OllamaRequest(c, prompt, Some(system), jsonMode)) == Response(body)
    requires body.JObject? && "message" in body.fields && body.fields["message"].JObject?
    requires "content" in body.fields["message"].fields
    ensures Generate(c, http, prompt, Some(system), jsonMode).reply
         == Ok(body.fields["message"].fields["content"])
  {
  }

  /** A body that is not an object has no `get`: the `AttributeError` becomes the reply text. */
  lemma NonObjectBodyIsErrorText(c: Config, http: Request -> HttpOutcome, prompt: string,
                                 jsonMode: bool, body: Json)
    requires c.provider == "ollama"
    requires http(OllamaRequest(c, prompt, None, jsonMode)) == Response(body)
    requires !body.JObject?
    ensures Generate(c, http, prompt, None, jsonMode).reply
         == Ok(JStr("Error calling Ollama: '" + TypeName(body) + "' object has no attribute 'get'"))
  {
    var t := TypeName(body);
    assert Message(NoAttribute(t, "get")) == "'" + t + "' object has no attribute '" + "get" + "'";
    assert "Error calling Ollama: " + ("'" + t + "' object has no attribute '" + "get" + "'")
        == "Error calling Ollama: '" + t + "' object has no attribute 'get'";
  }

  /** A body without the reply field reads as the empty reply, on either endpoint. */
  lemma MissingReplyFieldIsEmpty(c: Config, http: Request -> HttpOutcome, prompt: string,
                                 systemPrompt: Option<string>, jsonMode: bool)
    requires c.provider == "ollama"
    requires var b := http(OllamaRequest(c, prompt, systemPrompt, jsonMode));
      b.Response? && b.body.JObject? && "response" !in b.body.fields && "message" !in b.body.fields
    ensures Generate(c, http, prompt, systemPrompt, jsonMode).reply == Ok(JStr(""))
  {
  }
}

=== FILE: models.dfy ===
/** The pydantic models of app/core/models.py: field shapes and declared defaults. No field carries
    a validator, so `match_score` is any integer and `verdict` any string. */
module Models {

  import opened Wrappers
  import opened Json

  // --- Portfolio models ---

  datatype PersonalInfo = PersonalInfo(
    name: string,
    title: string,
    email: string,
    location: string,
    website: Option<string>,
    linkedin: Option<string>,
    github: Option<string>)

  datatype Project = Project(
    id: string,
    name: string,
    role: string,
    description: string,
    technologies: seq<string>,
    businessImpact: Option<string>)

  datatype SkillCategory = SkillCategory(category: string, items: seq<string>)

  /** The three `Dict[str, Any]` sections are kept as decoded JSON-like maps. */
  datatype ProfessionalConditions = ProfessionalConditions(
    availability: map<string, Json>,
    workPermit: map<string, Json>,
    salaryExpectations: map<string, Json>,
    motivationForChange: Option<string>)

  datatype Portfolio = Portfolio(
    personalInfo: PersonalInfo,
    professionalSummary: map<string, Json>,
    projects: map<string, Project>,
    skills: seq<SkillCategory>,
    professionalConditions: ProfessionalConditions)

  // --- Application models ---

  /** Salaries are Python floats; the model uses `real` and never computes with them. */
  datatype JobOffer = JobOffer(
    rawText: string,
    url: Option<string>,
    companyName: Option<string>,
    title: Option<string>,
    isRemote: bool,
    salaryMin: Option<real>,
    salaryMax: Option<real>,
    currency: string,
    visaSponsorship: Option<bool>)

  const DefaultJobOffer := JobOffer("", None, None, None, false, None, None, "EUR", None)

  datatype HardFilterStatus = HardFilterStatus(remotePass: bool, visaPass: bool, salaryPass: bool)

  const DefaultHardFilterStatus := HardFilterStatus(true, true, true)

  datatype AnalysisResult = AnalysisResult(
    matchScore: int,
    verdict: string,
    reasoningSummary: Option<string>,
    pros: seq<string>,
    cons: seq<string>,
    hardFilterCheck: Option<HardFilterStatus>)

  const DefaultAnalysisResult := AnalysisResult(0, "PENDING", None, [], [], None)
}

=== FILE: recovery.dfy ===
/** The agent's two-stage reading of the model's reply (app/core/agent.py:113-135): parse the whole
    text as JSON; only on a JSON syntax error, cut out the span the regex `\{.*"match_score".*\}`
    (DOTALL) finds, strip `//` comment lines, drop trailing commas before `}` and `]`, and parse
    once more. `json.loads` is an oracle; the regular expressions are modelled exactly. */
module Recovery {

  import opened Wrappers
  import opened Text
  import opened Json
  import opened Failures
  import opened Models
  import opened Schema

  /** What `json.loads` does with a string: a value, a `JSONDecodeError`, or some other exception. */
  datatype ParseOutcome = Parsed(value: Json) | DecodeError(detail: string) | Crashed(detail: string)

  /** The key the span regex looks for, quotes included. */
  const Key := "\"match_score\""

  // ---------------------------------------------------------------------------------------------
  // The span: re.compile(r'\{.*"match_score".*\}', re.DOTALL).search(text)
  // ---------------------------------------------------------------------------------------------

  /** The first index at or after `k` holding `c`. */
  function FirstIndex(s: string, c: char, k: nat): (r: Option<nat>)
    requires k <= |s|
    ensures r.Some? ==> k <= r.value < |s| && s[r.value] == c
    ensures forall j :: k <= j < |s| && s[j] == c ==> r.Some? && r.value <= j
    decreases |s| - k
  {
    if k == |s| then None else if s[k] == c then Some(k) else FirstIndex(s, c, k + 1)
  }

  /** The last index below `hi` holding `c`. */
  function LastIndex(s: string, c: char, hi: nat): (r: Option<nat>)
    requires hi <= |s|
    ensures r.Some? ==> r.value < hi && s[r.value] == c
    ensures forall j :: 0 <= j < hi && s[j] == c ==> r.Some? && j <= r.value
    decreases hi
  {
    if hi == 0 then None else if s[hi - 1] == c then Some(hi - 1) else LastIndex(s, c, hi - 1)
  }

  /** The regex matches exactly `s[i..e]`: a `{`, anything, the key, anything, a `}`. With DOTALL
      the dots also cross line breaks, so "anything" is any string. */
  ghost predicate SpanMatch(s: string, i: int, e: int) {
    && 0 <= i < e <= |s|
    && s[i] == '{'
    && s[e - 1] == '}'
    && exists j :: i < j && j + |Key| < e && OccursAt(s, j, Key)
  }

  /** The span as computed: from the first `{` to the last `}`, when the key sits in between. */
  function FindSpan(s: string): (r: Option<(nat, nat)>)
    ensures r.Some? ==> r.value.0 < r.value.1 <= |s|
  {
    match FirstIndex(s, '{', 0)
    case None => None
    case Some(i) =>
      match LastIndex(s, '}', |s|)
      case None => None
      case Some(k) =>
        if i < k then
          match FindFrom(s, Key, i + 1)
          case Some(j) => if j + |Key| <= k then Some((i, k + 1)) else None
          case None => None
        else None
  }

  /** Every match of the regex lies inside the computed span. */
  lemma SpanMatchWithinFound(s: string, i: int, e: int)
    ensures SpanMatch(s, i, e) ==>
      FindSpan(s).Some? && FindSpan(s).value.0 <= i && e <= FindSpan(s).value.1
  {
    if SpanMatch(s, i, e) {
      var j :| i < j && j + |Key| < e && OccursAt(s, j, Key);
      var first := FirstIndex(s, '{', 0);
      var last := LastIndex(s, '}', |s|);
      assert first.Some? && first.value <= i;
      assert last.Some? && e - 1 <= last.value;
      var found := FindFrom(s, Key, first.value + 1);
      assert found.Some? && found.value <= j;
    }
  }

  /** `FindSpan` is the regex search: it finds a span exactly when the regex matches somewhere, the
      span is itself a match, and it starts at the leftmost and ends at the rightmost possible
      position (Python's search takes the leftmost start, and the greedy dots the longest end). */
  lemma FindSpanIsRegexSearch(s: string)
    ensures FindSpan(s).Some? ==> SpanMatch(s, FindSpan(s).value.0, FindSpan(s).value.1)
    ensures forall i, e :: SpanMatch(s, i, e) ==>
      FindSpan(s).Some? && FindSpan(s).value.0 <= i && e <= FindSpan(s).value.1
  {
    forall i, e
      ensures SpanMatch(s, i, e) ==>
        FindSpan(s).Some? && FindSpan(s).value.0 <= i && e <= FindSpan(s).value.1
    {
      SpanMatchWithinFound(s, i, e);
    }
    if FindSpan(s).Some? {
      var i := FirstIndex(s, '{', 0).value;
      var j := FindFrom(s, Key, i + 1).value;
      assert OccursAt(s, j, Key);
    }
  }

  // ---------------------------------------------------------------------------------------------
  // re.sub(r'^\s*//.*$', '', text, flags=re.MULTILINE)
  // ---------------------------------------------------------------------------------------------

  /** The first `"\n"` at or after `k` (or `|s|`): where `.*$` stops, since `.` excludes only
      `"\n"` and `$` matches only before `"\n"` or at the end. */
  function NextNewline(s: string, k: nat): (j: nat)
    requires k <= |s|
    ensures k <= j <= |s|
    ensures j == |s| || s[j] == '\n'
    ensures forall i :: k <= i < j ==> s[i] != '\n'
    decreases |s| - k
  {
    if k == |s| || s[k] == '\n' then k else NextNewline(s, k + 1)
  }

  // The comment regex's prefix (whitespace, then two slashes) matches at the front of `s`; the
  // whitespace may cross line breaks.
  predicate CommentAhead(s: string) {
    var q := SkipSpaces(s, 0);
    q + 2 <= |s| && s[q] == '/' && s[q + 1] == '/'
  }

  /** Where the comment match at the front of `s` ends. */
  function CommentEnd(s: string): (e: nat)
    requires CommentAhead(s)
    ensures 2 <= e <= |s|
  {
    NextNewline(s, SkipSpaces(s, 0) + 2)
  }

  // The comment regex matches `s[..e]`, with the two slashes at `a`.
  ghost predicate CommentShape(s: string, a: int, e: int) {
    && 0 <= a && a + 2 <= e <= |s|
    && AllSpace(s[..a])
    && s[a] == '/' && s[a + 1] == '/'
    && (forall i :: a + 2 <= i < e ==> s[i] != '\n')
    && (e == |s| || s[e] == '\n')
  }

  /** The comment regex has at most one match at a given position, and the scan finds it: matching
      `s[..e]` is the same as `CommentAhead(s)` with `e == CommentEnd(s)`. */
  lemma CommentMatchUnique(s: string, e: int)
    ensures (exists a :: CommentShape(s, a, e)) <==> CommentAhead(s) && e == CommentEnd(s)
  {
    var q := SkipSpaces(s, 0);
    if CommentAhead(s) && e == CommentEnd(s) {
      assert s[..q] == s[0..q];
      assert CommentShape(s, q, e);
    }
    if a :| CommentShape(s, a, e) {
      assert q == a;
      assert NextNewline(s, a + 2) == e;
    }
  }

  /** The scan `re.sub` performs. `lineStart` says whether `^` matches at the front of `s`: at the
      start of the text, and after a `"\n"`. A match is deleted and the scan resumes at its end. */
  function StripCommentLines(s: string, lineStart: bool): (r: string)
    ensures IsSubsequence(r, s)
    decreases |s|
  {
    if |s| == 0 then ""
    else if lineStart && CommentAhead(s) then
      var e := CommentEnd(s);
      var rest := StripCommentLines(s[e..], s[e - 1] == '\n');
      SliceIsSubsequence(s, e, |s|);
      assert s[e..|s|] == s[e..];
      SubsequenceTrans(rest, s[e..], s);
      rest
    else
      var rest := StripCommentLines(s[1..], s[0] == '\n');
      SubsequenceCons(s[0], rest, s[1..]);
      assert [s[0]] + s[1..] == s;
      [s[0]] + rest
  }

  function StripComments(s: string): (r: string)
    ensures IsSubsequence(r, s)
  {
    StripCommentLines(s, true)
  }

  /** Text with no comment line comes through unchanged. */
  lemma {:induction false} StripCommentLinesUnchanged(s: string, lineStart: bool)
    requires forall p :: 0 <= p < |s| && (if p == 0 then lineStart else s[p - 1] == '\n') ==>
      !CommentAhead(s[p..])
    ensures StripCommentLines(s, lineStart) == s
    decreases |s|
  {
    if |s| > 0 {
      assert s[0..] == s;
      forall p | 0 <= p < |s[1..]| && (if p == 0 then s[0] == '\n' else s[1..][p - 1] == '\n')
        ensures !CommentAhead(s[1..][p..])
      {
        assert s[1..][p..] == s[p + 1..];
      }
      StripCommentLinesUnchanged(s[1..], s[0] == '\n');
      assert [s[0]] + s[1..] == s;
    }
  }

  lemma {:induction false} SkipSpacesCons(c: char, x: string, k: nat)
    requires k <= |x|
    ensures SkipSpaces([c] + x, k + 1) == SkipSpaces(x, k) + 1
    decreases |x| - k
  {
    var s := [c] + x;
    assert k < |x| ==> s[k + 1] == x[k];
    if k < |x| && IsSpace(x[k]) {
      SkipSpacesCons(c, x, k + 1);
    }
  }

  /** `\s*` runs over a leading whitespace character, line breaks included. */
  lemma CommentAheadPastSpace(c: char, x: string)
    requires IsSpace(c)
    ensures CommentAhead([c] + x) <==> CommentAhead(x)
  {
    SkipSpacesCons(c, x, 0);
    var q := SkipSpaces(x, 0);
    assert q + 2 <= |x| ==> ([c] + x)[q + 1] == x[q] && ([c] + x)[q + 2] == x[q + 1];
  }

  /** The scan never leaves a comment line at the front of its result, unless it starts mid-line
      in front of one. */
  lemma {:induction false} NoCommentAtFront(t: string, lineStart: bool)
    requires lineStart || !CommentAhead(t) || (|t| > 0 && t[0] == '\n')
    ensures !CommentAhead(StripCommentLines(t, lineStart))
    decreases |t|
  {
    if |t| == 0 {
    } else if lineStart && CommentAhead(t) {
      var e := CommentEnd(t);
      assert t[e - 1] != '\n';
      NoCommentAtFront(t[e..], false);
    } else {
      var rest := StripCommentLines(t[1..], t[0] == '\n');
      assert StripCommentLines(t, lineStart) == [t[0]] + rest;
      assert t == [t[0]] + t[1..];
      if IsSpace(t[0]) {
        CommentAheadPastSpace(t[0], t[1..]);
        CommentAheadPastSpace(t[0], rest);
        NoCommentAtFront(t[1..], t[0] == '\n');
      } else if t[0] == '/' && |t| >= 2 {
        SlashKeepsNext(t, rest);
      }
    }
  }

  /** A kept `/` is followed by the character after it, so no `//` opens at the front. */
  lemma SlashKeepsNext(t: string, rest: string)
    requires |t| >= 2 && t[0] == '/' && !CommentAhead(t)
    requires rest == StripCommentLines(t[1..], false)
    ensures !CommentAhead([t[0]] + rest)
  {
    assert SkipSpaces(t, 0) == 0;
    assert rest == [t[1]] + StripCommentLines(t[2..], t[1] == '\n');
    assert SkipSpaces([t[0]] + rest, 0) == 0;
  }

  /** `p` is a position where `^` matches in `r`: the start, when the text starts a line, and
      every position after a `"\n"`. */
  predicate AtLineStart(r: string, p: int, lineStart: bool) {
    0 <= p <= |r| && ((p == 0 && lineStart) || (0 < p && r[p - 1] == '\n'))
  }

  /** No line of `r` is a comment line. */
  ghost predicate NoCommentLine(r: string, lineStart: bool) {
    forall p :: AtLineStart(r, p, lineStart) ==> !CommentAhead(r[p..])
  }

  /** No comment line survives the scan. */
  lemma {:induction false} NoCommentLineLeft(s: string, lineStart: bool)
    ensures NoCommentLine(StripCommentLines(s, lineStart), lineStart)
    decreases |s|
  {
    var r := StripCommentLines(s, lineStart);
    if lineStart {
      NoCommentAtFront(s, lineStart);
      assert r[0..] == r;
    }
    if |s| == 0 {
    } else if lineStart && CommentAhead(s) {
      var e := CommentEnd(s);
      assert s[e - 1] != '\n';
      assert r == StripCommentLines(s[e..], false);
      NoCommentLineLeft(s[e..], false);
    } else {
      var ls := s[0] == '\n';
      var rest := StripCommentLines(s[1..], ls);
      NoCommentLineLeft(s[1..], ls);
      assert r == [s[0]] + rest;
      forall p | AtLineStart(r, p, lineStart) ensures !CommentAhead(r[p..]) {
        if p > 0 {
          assert r[p..] == rest[p - 1..];
          assert p > 1 ==> rest[p - 2] == r[p - 1];
          assert AtLineStart(rest, p - 1, ls);
        }
      }
    }
  }

  /** The comment substitution leaves no comment line anywhere: not at the start of the text and
      not after any line break. */
  lemma StripCommentsLeavesNone(s: string)
    ensures var r := StripComments(s);
      forall p :: 0 <= p <= |r| && (p == 0 || r[p - 1] == '\n') ==> !CommentAhead(r[p..])
  {
    NoCommentLineLeft(s, true);
    var r := StripComments(s);
    forall p | 0 <= p <= |r| && (p == 0 || r[p - 1] == '\n') ensures !CommentAhead(r[p..]) {
      assert AtLineStart(r, p, true);
    }
  }

  lemma {:induction false} SkipSpacesOver(w: string, x: string, k: nat)
    requires k <= |w| && AllSpace(w)
    requires |x| > 0 && !IsSpace(x[0])
    ensures SkipSpaces(w + x, k) == |w|
    decreases |w| - k
  {
    var s := w + x;
    if k < |w| {
      assert s[k] == w[k];
      SkipSpacesOver(w, x, k + 1);
    } else {
      assert s[k] == x[0];
    }
  }

  lemma {:induction false} NextNewlineOver(s: string, k: nat, j: nat)
    requires k <= j <= |s|
    requires forall i :: k <= i < j ==> s[i] != '\n'
    requires j == |s| || s[j] == '\n'
    ensures NextNewline(s, k) == j
    decreases j - k
  {
    if k < j {
      NextNewlineOver(s, k + 1, j);
    }
  }

  /** Where the comment match of `w + "//" + t + rest` ends. */
  lemma CommentLineEnd(w: string, t: string, rest: string)
    requires AllSpace(w)
    requires forall i :: 0 <= i < |t| ==> t[i] != '\n'
    requires rest == "" || rest[0] == '\n'
    ensures CommentAhead(w + "//" + t + rest)
    ensures CommentEnd(w + "//" + t + rest) == |w| + 2 + |t|
  {
    var s := w + "//" + t + rest;
    SkipSpacesOver(w, "//" + t + rest, 0);
    assert s == w + ("//" + t + rest);
    assert s[|w|] == '/' && s[|w| + 1] == '/';
    assert forall i :: |w| + 2 <= i < |w| + 2 + |t| ==> s[i] == t[i - |w| - 2];
    assert |w| + 2 + |t| < |s| ==> s[|w| + 2 + |t|] == rest[0];
    NextNewlineOver(s, |w| + 2, |w| + 2 + |t|);
  }

  /** At a line start, a comment line (leading whitespace, `//`, the rest of the line) is deleted
      exactly, up to and not including its line break. */
  lemma CommentLineDeleted(w: string, t: string, rest: string)
    requires AllSpace(w)
    requires forall i :: 0 <= i < |t| ==> t[i] != '\n'
    requires rest == "" || rest[0] == '\n'
    ensures StripCommentLines(w + "//" + t + rest, true) == StripCommentLines(rest, false)
  {
    var s := w + "//" + t + rest;
    var e := |w| + 2 + |t|;
    CommentLineEnd(w, t, rest);
    assert s[e..] == rest;
    assert s[e - 1] == if |t| == 0 then '/' else t[|t| - 1];
  }

  /** `\s*` stops inside `a` when `a` has a non-space at or after `k`; what follows does not matter. */
  lemma {:induction false} SkipSpacesStopsInside(a: string, t: string, k: nat)
    requires k <= |a| && SkipSpaces(a, k) < |a|
    ensures SkipSpaces(a + t, k) == SkipSpaces(a, k)
    decreases |a| - k
  {
    if IsSpace(a[k]) {
      SkipSpacesStopsInside(a, t, k + 1);
    }
  }

  /** A line holding a non-space character decides on its own whether the comment regex matches
      at its start: the `\s*` cannot run past it into the next line. */
  lemma CommentAheadOfLine(x: string, rest: string)
    requires forall i :: 0 <= i < |x| ==> x[i] != '\n'
    requires !AllSpace(x)
    ensures CommentAhead(x + "\n" + rest) <==> CommentAhead(x)
  {
    var s := x + "\n" + rest;
    var q := SkipSpaces(x, 0);
    assert q < |x|;
    SkipSpacesStopsInside(x, "\n" + rest, 0);
    assert s == x + ("\n" + rest);
    assert s[q] == x[q];
    assert q + 1 < |x| ==> s[q + 1] == x[q + 1];
    assert q + 1 == |x| ==> s[q + 1] == '\n';
  }

  /** Leading whitespace, line breaks included, is transparent to the comment regex: a blank line
      in front of a comment line is part of its match. */
  lemma {:induction false} CommentAheadPastBlank(w: string, rest: string)
    requires AllSpace(w)
    ensures CommentAhead(w + rest) <==> CommentAhead(rest)
    decreases |w|
  {
    if |w| == 0 {
      assert w + rest == rest;
    } else {
      CommentAheadPastBlank(w[1..], rest);
      assert w + rest == [w[0]] + (w[1..] + rest);
      CommentAheadPastSpace(w[0], w[1..] + rest);
    }
  }

  /** A line that does not open a comment match is kept whole with its line break, and the scan
      goes on at the start of the next line. */
  lemma {:induction false} KeptLine(x: string, rest: string, lineStart: bool)
    requires forall i :: 0 <= i < |x| ==> x[i] != '\n'
    requires lineStart ==> !CommentAhead(x + "\n" + rest)
    ensures StripCommentLines(x + "\n" + rest, lineStart) == x + "\n" + StripCommentLines(rest, true)
    decreases |x|
  {
    var s := x + "\n" + rest;
    if |x| == 0 {
      assert s == "\n" + rest;
      assert s[1..] == rest;
    } else {
      assert s[1..] == x[1..] + "\n" + rest;
      KeptLine(x[1..], rest, false);
      assert x == [x[0]] + x[1..];
    }
  }

  /** A line with text that is not a comment line is kept, whatever the lines after it hold. */
  lemma KeptTextLine(x: string, rest: string, lineStart: bool)
    requires forall i :: 0 <= i < |x| ==> x[i] != '\n'
    requires !AllSpace(x)
    requires lineStart ==> !CommentAhead(x)
    ensures StripCommentLines(x + "\n" + rest, lineStart) == x + "\n" + StripCommentLines(rest, true)
  {
    CommentAheadOfLine(x, rest);
    KeptLine(x, rest, lineStart);
  }

  /** A last line (no line break after it) that is not a comment line is kept as it is. */
  lemma LastLineKept(x: string, lineStart: bool)
    requires forall i :: 0 <= i < |x| ==> x[i] != '\n'
    requires lineStart ==> !CommentAhead(x)
    ensures StripCommentLines(x, lineStart) == x
  {
    forall p | 0 <= p < |x| && (if p == 0 then lineStart else x[p - 1] == '\n')
      ensures !CommentAhead(x[p..])
    {
      assert x[0..] == x;
    }
    StripCommentLinesUnchanged(x, lineStart);
  }

  /** An object whose first line is a comment line and whose second line is a field: the comment
      text goes, its line break stays, and the field line and the closing brace are kept. */
  lemma CommentLineInsideObject(w: string, t: string, field: string)
    requires AllSpace(w)
    requires forall i :: 0 <= i < |t| ==> t[i] != '\n'
    requires forall i :: 0 <= i < |field| ==> field[i] != '\n'
    requires !AllSpace(field) && !CommentAhead(field)
    ensures StripComments("{\n" + w + "//" + t + "\n" + field + "\n}") == "{\n\n" + field + "\n}"
  {
    ObjectScan(w, t, field);
    ObjectTexts(w, t, field);
  }

  /** The same object, written as the lines the scan walks through. */
  lemma ObjectScan(w: string, t: string, field: string)
    requires AllSpace(w)
    requires forall i :: 0 <= i < |t| ==> t[i] != '\n'
    requires forall i :: 0 <= i < |field| ==> field[i] != '\n'
    requires !AllSpace(field) && !CommentAhead(field)
    ensures var b := field + "\n" + "}";
      StripCommentLines("{" + "\n" + (w + "//" + t + ("" + "\n" + b)), true)
        == "{" + "\n" + ("" + "\n" + b)
  {
    var b := field + "\n" + "}";
    var tail := "" + "\n" + b;
    ObjectOpenLine(w + "//" + t + tail);
    CommentLineDeleted(w, t, tail);
    KeptLine("", b, false);
    ObjectCloseLine(field);
  }

  lemma ObjectTexts(w: string, t: string, field: string)
    ensures var b := field + "\n" + "}";
      && "{\n" + w + "//" + t + "\n" + field + "\n}" == "{" + "\n" + (w + "//" + t + ("" + "\n" + b))
      && "{\n\n" + field + "\n}" == "{" + "\n" + ("" + "\n" + b)
  {
  }

  /** The line `{` that opens an object is kept. */
  lemma ObjectOpenLine(a: string)
    ensures StripCommentLines("{" + "\n" + a, true) == "{" + "\n" + StripCommentLines(a, true)
  {
    var open := "{";
    assert open[0] == '{';
    assert !AllSpace(open);
    assert !CommentAhead(open);
    KeptTextLine(open, a, true);
  }

  /** A field line followed by the closing line `}` is kept as it is. */
  lemma ObjectCloseLine(field: string)
    requires forall i :: 0 <= i < |field| ==> field[i] != '\n'
    requires !AllSpace(field) && !CommentAhead(field)
    ensures StripCommentLines(field + "\n" + "}", true) == field + "\n" + "}"
  {
    var last := "}";
    assert last[0] == '}';
    assert !CommentAhead(last);
    KeptTextLine(field, last, true);
    LastLineKept(last, true);
  }

  /** The field line of the example below: indented, not a comment, one line. */
  lemma MatchScoreLine()
    ensures var field := "  \"match_score\": 80";
      (forall i :: 0 <= i < |field| ==> field[i] != '\n') && !AllSpace(field) && !CommentAhead(field)
  {
    var field := "  \"match_score\": 80";
    var text := "\"match_score\": 80";
    assert field == "  " + text;
    assert AllSpace("  ");
    CommentAheadPastBlank("  ", text);
    assert SkipSpaces(text, 0) == 0;
    assert field[2] == '"';
  }

  /** A comment line inside an object: the line goes, its line break and every other line stay.
      The text is `{`, a comment line `  // note`, the field line `  "match_score": 80` and `}`. */
  lemma StripCommentsInsideObject()
    ensures StripComments("{\n" + "  " + "//" + " note" + "\n" + "  \"match_score\": 80" + "\n}")
         == "{\n\n" + "  \"match_score\": 80" + "\n}"
  {
    MatchScoreLine();
    CommentLineInsideObject("  ", " note", "  \"match_score\": 80");
  }

  /** A comment line at the very start goes; its line break stays. */
  lemma StripCommentsExample()
    ensures StripComments("// x\n{}") == "\n{}"
  {
    var s := "// x\n{}";
    assert SkipSpaces(s, 0) == 0;
    assert NextNewline(s, 2) == 4;
    assert s[4..] == "\n{}";
    assert "\n{}"[1..] == "{}";
    assert "{}"[1..] == "}";
  }

  // ---------------------------------------------------------------------------------------------
  // re.sub(r',\s*\}', '}', text) and re.sub(r',\s*\]', ']', text)
  // ---------------------------------------------------------------------------------------------

  /** `,\s*<close>` matches at the front of `s`. */
  predicate TrailingCommaAt(s: string, close: char) {
    |s| > 0 && s[0] == ',' && SkipSpaces(s, 1) < |s| && s[SkipSpaces(s, 1)] == close
  }

  /** The `re.sub` scan: each match becomes the closing bracket alone; the scan resumes after it. */
  function DropTrailingCommas(s: string, close: char): (r: string)
    ensures IsSubsequence(r, s)
    decreases |s|
  {
    if |s| == 0 then ""
    else if TrailingCommaAt(s, close) then
      var q := SkipSpaces(s, 1);
      var rest := DropTrailingCommas(s[q + 1..], close);
      assert s[q..] == [s[q]] + s[q + 1..];
      SubsequenceCons(close, rest, s[q + 1..]);
      DropMiddleIsSubsequence([], s[..q], s[q..]);
      assert [] + s[..q] + s[q..] == s;
      assert [] + s[q..] == s[q..];
      SubsequenceTrans([close] + rest, s[q..], s);
      [close] + rest
    else
      var rest := DropTrailingCommas(s[1..], close);
      SubsequenceCons(s[0], rest, s[1..]);
      assert [s[0]] + s[1..] == s;
      [s[0]] + rest
  }

  /** `,\s*<close>` matches `s[..e]`. */
  ghost predicate CommaMatch(s: string, close: char, e: int) {
    2 <= e <= |s| && s[0] == ',' && AllSpace(s[1..e - 1]) && s[e - 1] == close
  }

  /** The comma regex has at most one match at a given position, and the scan finds it. */
  lemma CommaMatchUnique(s: string, close: char, e: int)
    requires !IsSpace(close)
    ensures CommaMatch(s, close, e) <==> TrailingCommaAt(s, close) && e == SkipSpaces(s, 1) + 1
  {
    if CommaMatch(s, close, e) {
      var q := SkipSpaces(s, 1);
      assert q == e - 1;
    }
  }

  /** The characters that carry the JSON's content: everything but commas and whitespace. */
  predicate Solid(c: char) {
    c != ',' && !IsSpace(c)
  }

  function Skeleton(s: string): (r: string)
    ensures forall i :: 0 <= i < |r| ==> Solid(r[i])
  {
    if |s| == 0 then "" else (if Solid(s[0]) then [s[0]] else []) + Skeleton(s[1..])
  }

  lemma {:induction false} SkeletonSkipsSpaces(s: string, k: nat)
    requires k <= |s|
    ensures Skeleton(s[k..]) == Skeleton(s[SkipSpaces(s, k)..])
    decreases |s| - k
  {
    if k < |s| && IsSpace(s[k]) {
      assert s[k..][1..] == s[k + 1..];
      SkeletonSkipsSpaces(s, k + 1);
    }
  }

  /** Dropping trailing commas removes only commas and whitespace: every other character is kept,
      in order. */
  lemma {:induction false} DropTrailingCommasKeepsSkeleton(s: string, close: char)
    requires Solid(close)
    ensures Skeleton(DropTrailingCommas(s, close)) == Skeleton(s)
    decreases |s|
  {
    if |s| > 0 {
      if TrailingCommaAt(s, close) {
        var q := SkipSpaces(s, 1);
        var rest := DropTrailingCommas(s[q + 1..], close);
        DropTrailingCommasKeepsSkeleton(s[q + 1..], close);
        SkeletonSkipsSpaces(s, 1);
        assert s[q..][1..] == s[q + 1..];
        assert ([close] + rest)[1..] == rest;
      } else {
        var rest := DropTrailingCommas(s[1..], close);
        DropTrailingCommasKeepsSkeleton(s[1..], close);
        assert ([s[0]] + rest)[1..] == rest;
      }
    }
  }

  /** Appending text that starts with a non-space, non-bracket character does not move where a
      whitespace run inside `a` ends. */
  lemma {:induction false} SkipSpacesAppend(a: string, t: string, k: nat)
    requires k <= |a|
    requires |t| > 0 && !IsSpace(t[0])
    ensures SkipSpaces(a + t, k) == SkipSpaces(a, k)
    decreases |a| - k
  {
    if k < |a| && IsSpace(a[k]) {
      SkipSpacesAppend(a, t, k + 1);
    }
  }

  /** The scan of `a + t` is the scan of `a` followed by the scan of `t`, when `t` starts with a
      character that neither continues a whitespace run nor closes one. */
  lemma {:induction false} DropTrailingCommasAppend(a: string, t: string, close: char)
    requires |t| > 0 && !IsSpace(t[0]) && t[0] != close
    ensures DropTrailingCommas(a + t, close) == DropTrailingCommas(a, close) + DropTrailingCommas(t, close)
    decreases |a|
  {
    if |a| == 0 {
      assert a + t == t;
    } else {
      var u := a + t;
      TrailingCommaAppend(a, t, close);
      if TrailingCommaAt(a, close) {
        var q := SkipSpaces(a, 1);
        assert u[q + 1..] == a[q + 1..] + t;
        DropTrailingCommasAppend(a[q + 1..], t, close);
        assert DropTrailingCommas(u, close) == [close] + DropTrailingCommas(u[q + 1..], close);
      } else {
        assert u[1..] == a[1..] + t;
        DropTrailingCommasAppend(a[1..], t, close);
        assert DropTrailingCommas(u, close) == [u[0]] + DropTrailingCommas(u[1..], close);
      }
    }
  }

  /** A match at the front of `a + t` is a match at the front of `a`, ending at the same place. */
  lemma TrailingCommaAppend(a: string, t: string, close: char)
    requires |a| > 0 && |t| > 0 && !IsSpace(t[0]) && t[0] != close
    ensures TrailingCommaAt(a + t, close) <==> TrailingCommaAt(a, close)
    ensures TrailingCommaAt(a, close) ==> SkipSpaces(a + t, 1) == SkipSpaces(a, 1)
  {
    if a[0] == ',' {
      SkipSpacesAppend(a, t, 1);
    }
  }

  /** Text in which the comma regex matches nowhere comes through unchanged. */
  lemma {:induction false} DropTrailingCommasUnchanged(s: string, close: char)
    requires forall p :: 0 <= p < |s| ==> !TrailingCommaAt(s[p..], close)
    ensures DropTrailingCommas(s, close) == s
    decreases |s|
  {
    if |s| > 0 {
      assert s[0..] == s;
      forall p | 0 <= p < |s[1..]| ensures !TrailingCommaAt(s[1..][p..], close) {
        assert s[1..][p..] == s[p + 1..];
      }
      DropTrailingCommasUnchanged(s[1..], close);
      assert [s[0]] + s[1..] == s;
    }
  }

  /** A whitespace run of `n` characters from `k`, followed by a non-space, ends at `k + n`. */
  lemma {:induction false} SkipSpacesRun(s: string, k: nat, n: nat)
    requires k + n < |s| && AllSpace(s[k..k + n]) && !IsSpace(s[k + n])
    ensures SkipSpaces(s, k) == k + n
    decreases n
  {
    if n > 0 {
      assert s[k..k + n][0] == s[k];
      assert s[k + 1..k + 1 + (n - 1)] == s[k..k + n][1..];
      SkipSpacesRun(s, k + 1, n - 1);
    }
  }

  /** A comma, a whitespace run and the bracket at the front are one match. */
  lemma TrailingCommaFront(w: string, b: string, close: char)
    requires Solid(close) && AllSpace(w)
    ensures DropTrailingCommas([','] + w + [close] + b, close) == [close] + DropTrailingCommas(b, close)
  {
    var t := [','] + w + [close] + b;
    assert t[1..1 + |w|] == w;
    SkipSpacesRun(t, 1, |w|);
    assert t[|w| + 2..] == b;
  }

  /** One trailing comma before a closing bracket goes, with the whitespace after it; the text on
      either side is scanned on its own. */
  lemma DropSingleTrailingComma(a: string, w: string, b: string, close: char)
    requires Solid(close) && AllSpace(w)
    ensures DropTrailingCommas(a + [','] + w + [close] + b, close)
         == DropTrailingCommas(a, close) + [close] + DropTrailingCommas(b, close)
  {
    var t := [','] + w + [close] + b;
    var whole := a + [','] + w + [close] + b;
    assert whole == a + t;
    assert t[0] == ',';
    TrailingCommaFront(w, b, close);
    DropTrailingCommasAppend(a, t, close);
  }

  /** Two commas before a bracket lose only the second: the repair is not complete. */
  lemma DoubleTrailingCommaRemains()
    ensures DropTrailingCommas(",,}", '}') == ",}"
  {
    var s := ",,}";
    assert SkipSpaces(s, 1) == 1;
    assert s[1..] == ",}";
    assert SkipSpaces(",}", 1) == 1;
    assert ",}"[2..] == "";
  }

  /** The whole textual repair applied to the span, in the source's order. */
  function Repair(span: string): (r: string)
    ensures IsSubsequence(r, span)
  {
    var a := StripComments(span);
    var b := DropTrailingCommas(a, '}');
    var c := DropTrailingCommas(b, ']');
    SubsequenceTrans(c, b, a);
    SubsequenceTrans(c, a, span);
    c
  }

  /** Once the comment lines are gone, the repair changes commas and whitespace only. */
  lemma RepairKeepsSkeleton(span: string)
    ensures Skeleton(Repair(span)) == Skeleton(StripComments(span))
  {
    var a := StripComments(span);
    DropTrailingCommasKeepsSkeleton(a, '}');
    DropTrailingCommasKeepsSkeleton(DropTrailingCommas(a, '}'), ']');
  }

  /** A span with no comment line and no trailing comma before either bracket is not changed. */
  lemma RepairUnchanged(span: string)
    requires forall p :: 0 <= p < |span| && (p == 0 || span[p - 1] == '\n') ==>
      !CommentAhead(span[p..])
    requires forall p :: 0 <= p < |span| ==>
      !TrailingCommaAt(span[p..], '}') && !TrailingCommaAt(span[p..], ']')
    ensures Repair(span) == span
  {
    forall p | 0 <= p < |span| && (if p == 0 then true else span[p - 1] == '\n')
      ensures !CommentAhead(span[p..])
    {
    }
    StripCommentLinesUnchanged(span, true);
    DropTrailingCommasUnchanged(span, '}');
    DropTrailingCommasUnchanged(span, ']');
  }

  /** The repair of an object with a comment line and a comma-free field line: only the comment
      text goes. */
  lemma RepairCommentInsideObject(w: string, t: string, field: string)
    requires AllSpace(w)
    requires forall i :: 0 <= i < |t| ==> t[i] != '\n'
    requires forall i :: 0 <= i < |field| ==> field[i] != '\n' && field[i] != ','
    requires !AllSpace(field) && !CommentAhead(field)
    ensures Repair("{\n" + w + "//" + t + "\n" + field + "\n}") == "{\n\n" + field + "\n}"
  {
    var r := "{\n\n" + field + "\n}";
    CommentLineInsideObject(w, t, field);
    forall p | 0 <= p < |r| ensures r[p] != ',' {
      if 3 <= p < 3 + |field| {
        assert r[p] == field[p - 3];
      }
    }
    forall p | 0 <= p < |r| ensures !TrailingCommaAt(r[p..], '}') && !TrailingCommaAt(r[p..], ']') {
      assert r[p..][0] == r[p];
    }
    DropTrailingCommasUnchanged(r, '}');
    DropTrailingCommasUnchanged(r, ']');
  }

  /** The repair of the object of `StripCommentsInsideObject`. */
  lemma RepairInsideObject()
    ensures Repair("{\n" + "  " + "//" + " note" + "\n" + "  \"match_score\": 80" + "\n}")
         == "{\n\n" + "  \"match_score\": 80" + "\n}"
  {
    var field := "  \"match_score\": 80";
    MatchScoreLine();
    assert ',' !in field;
    RepairCommentInsideObject("  ", " note", field);
  }

  // ---------------------------------------------------------------------------------------------
  // The two stages
  // ---------------------------------------------------------------------------------------------

  /** `json.loads(text)` followed by `AnalysisResult(**data)`, each of which may raise. */
  function Decode(text: string, parse: string -> ParseOutcome, co: Coercion)
    : Result<AnalysisResult, Failure>
  {
    match parse(text)
    case Parsed(j) => Build(j, co)
    case DecodeError(d) => Err(JsonDecodeError(d))
    case Crashed(d) => Err(JsonCrashed(d))
  }

  /** The outcome (a result, or the exception that leaves the `try`) and the texts handed to
      `json.loads`, in order. */
  datatype Recovery = Recovery(outcome: Result<AnalysisResult, Failure>, parsed: seq<string>)

  function Recover(text: string, parse: string -> ParseOutcome, co: Coercion): (r: Recovery)
    ensures 1 <= |r.parsed| <= 2 && r.parsed[0] == text
    ensures r.outcome.Ok? ==> Decode(r.parsed[|r.parsed| - 1], parse, co) == r.outcome
    ensures !parse(text).DecodeError? ==> r == Recovery(Decode(text, parse, co), [text])
    ensures |r.parsed| == 2 <==> parse(text).DecodeError? && FindSpan(text).Some?
    ensures |r.parsed| == 2 ==>
      && r.parsed[1] == Repair(text[FindSpan(text).value.0..FindSpan(text).value.1])
      && r.outcome == Decode(r.parsed[1], parse, co)
    ensures parse(text).DecodeError? && FindSpan(text).None? ==>
      r.outcome == Err(NoJsonFound(Take(text, 500)))
  {
    match parse(text)
    case Parsed(j) => Recovery(Build(j, co), [text])
    case Crashed(d) => Recovery(Err(JsonCrashed(d)), [text])
    case DecodeError(_) =>
      match FindSpan(text)
      case None => Recovery(Err(NoJsonFound(Take(text, 500))), [text])
      case Some(span) =>
        var repaired := Repair(text[span.0..span.1]);
        Recovery(Decode(repaired, parse, co), [text, repaired])
  }

  /** A reply that is the JSON form of a result reads back as that result, with one parse. */
  lemma RecoverValidJson(text: string, result: AnalysisResult, parse: string -> ParseOutcome,
                         co: Coercion)
    requires Faithful(co)
    requires parse(text) == Parsed(ToJson(result))
    ensures Recover(text, parse, co) == Recovery(Ok(result), [text])
  {
    BuildToJson(result, co);
  }

  lemma WrappedBraces(pre: string, obj: string, post: string)
    requires forall i :: 0 <= i < |pre| ==> pre[i] != '{'
    requires forall i :: 0 <= i < |post| ==> post[i] != '}'
    requires |obj| >= 2 && obj[0] == '{' && obj[|obj| - 1] == '}'
    ensures FirstIndex(pre + obj + post, '{', 0) == Some(|pre|)
    ensures LastIndex(pre + obj + post, '}', |pre + obj + post|) == Some(|pre| + |obj| - 1)
  {
    var text := pre + obj + post;
    var lo, hi := |pre|, |pre| + |obj|;
    assert forall i :: 0 <= i < lo ==> text[i] == pre[i];
    assert forall i :: hi <= i < |text| ==> text[i] == post[i - hi];
    assert text[lo] == '{' && text[hi - 1] == '}';
  }

  lemma WrappedKey(pre: string, obj: string, post: string, j: nat)
    requires 1 <= j && j + |Key| < |obj| && OccursAt(obj, j, Key)
    ensures var found := FindFrom(pre + obj + post, Key, |pre| + 1);
      found.Some? && found.value <= |pre| + j
  {
    var text := pre + obj + post;
    assert text[|pre| + j..|pre| + j + |Key|] == obj[j..j + |Key|];
    assert OccursAt(text, |pre| + j, Key);
  }

  /** The span of an object with no `{` before it and no `}` after it is exactly the object. */
  lemma WrappedSpan(pre: string, obj: string, post: string, j: nat)
    requires forall i :: 0 <= i < |pre| ==> pre[i] != '{'
    requires forall i :: 0 <= i < |post| ==> post[i] != '}'
    requires |obj| >= 2 && obj[0] == '{' && obj[|obj| - 1] == '}'
    requires 1 <= j && j + |Key| < |obj| && OccursAt(obj, j, Key)
    ensures FindSpan(pre + obj + post) == Some((|pre|, |pre| + |obj|))
  {
    WrappedBraces(pre, obj, post);
    WrappedKey(pre, obj, post, j);
  }

  /** A result object wrapped in prose or a code fence: the span is exactly the object, and when
      the repaired object parses to the JSON form of a result, that result is returned. */
  lemma RecoverWrappedObject(pre: string, obj: string, post: string, j: nat,
                             result: AnalysisResult, parse: string -> ParseOutcome, co: Coercion)
    requires forall i :: 0 <= i < |pre| ==> pre[i] != '{'
    requires forall i :: 0 <= i < |post| ==> post[i] != '}'
    requires |obj| >= 2 && obj[0] == '{' && obj[|obj| - 1] == '}'
    requires 1 <= j && j + |Key| < |obj| && OccursAt(obj, j, Key)
    requires parse(pre + obj + post).DecodeError?
    requires parse(Repair(obj)) == Parsed(ToJson(result))
    requires Faithful(co)
    ensures FindSpan(pre + obj + post) == Some((|pre|, |pre| + |obj|))
    ensures Recover(pre + obj + post, parse, co) == Recovery(Ok(result), [pre + obj + post, Repair(obj)])
  {
    var text := pre + obj + post;
    WrappedSpan(pre, obj, post, j);
    assert text[|pre|..|pre| + |obj|] == obj;
    BuildToJson(result, co);
  }
}

=== FILE: schema.dfy ===
/** `AnalysisResult(**data)`: building the result model from a decoded JSON value the way pydantic
    does it — keys outside the schema are ignored, absent fields take their declared defaults, and
    present fields are validated, every failure being collected. How pydantic coerces one scalar
    (accepting "85" or 85.0 for an int, say) is left to the `Coercion` oracle. */
module Schema {

  import opened Wrappers
  import opened Text
  import opened Json
  import opened Failures
  import opened Models

  /** pydantic's conversion of one JSON value to a scalar field type; an error carries the reason. */
  datatype Coercion = Coercion(
    toInt: Json -> Result<int, string>,
    toStr: Json -> Result<string, string>,
    toBool: Json -> Result<bool, string>)

  /** Every pydantic mode accepts an exactly-typed value as itself. */
  ghost predicate Faithful(co: Coercion) {
    && (forall i :: co.toInt(JInt(i)) == Ok(i))
    && (forall s :: co.toStr(JStr(s)) == Ok(s))
    && (forall b :: co.toBool(JBool(b)) == Ok(b))
  }

  const ResultFields: set<string> :=
    {"match_score", "verdict", "reasoning_summary", "pros", "cons", "hard_filter_check"}

  const FilterFields: set<string> := {"remote_pass", "visa_pass", "salary_pass"}

  const NotAList := "Input should be a valid list"
  const NotAFilterStatus := "Input should be a valid dictionary or instance of HardFilterStatus"

  type Checked<T> = Result<T, seq<FieldError>>

  function Errors<T>(c: Checked<T>): seq<FieldError> {
    if c.Err? then c.error else []
  }

  function Scalar<T>(loc: string, r: Result<T, string>): Checked<T> {
    match r
    case Ok(v) => Ok(v)
    case Err(msg) => Err([FieldError(loc, msg)])
  }

  /** The items of a `List[str]` from index `k` on; a failing item is reported at `loc.<index>`. */
  function StrItems(loc: string, items: seq<Json>, k: nat, co: Coercion): Checked<seq<string>>
    requires k <= |items|
    decreases |items| - k
  {
    if k == |items| then Ok([])
    else
      var head := Scalar(loc + "." + NatToString(k), co.toStr(items[k]));
      var tail := StrItems(loc, items, k + 1, co);
      if head.Ok? && tail.Ok? then Ok([head.value] + tail.value)
      else Err(Errors(head) + Errors(tail))
  }

  function StrList(loc: string, j: Json, co: Coercion): Checked<seq<string>> {
    match j
    case JArray(items) => StrItems(loc, items, 0, co)
    case _ => Err([FieldError(loc, NotAList)])
  }

  function OptionalStr(loc: string, j: Json, co: Coercion): Checked<Option<string>> {
    if j.JNull? then Ok(None)
    else match Scalar(loc, co.toStr(j))
      case Ok(s) => Ok(Some(s))
      case Err(e) => Err(e)
  }

  /** A boolean field of `HardFilterStatus` nested under `loc`: validated when present, true
      (its declared default) when absent. */
  function FlagField(loc: string, m: map<string, Json>, key: string, co: Coercion): Checked<bool> {
    if key in m then Scalar(loc + "." + key, co.toBool(m[key])) else Ok(true)
  }

  /** `HardFilterStatus(**m)` nested under `loc`. */
  function FilterStatus(loc: string, m: map<string, Json>, co: Coercion): Checked<HardFilterStatus> {
    var remote := FlagField(loc, m, "remote_pass", co);
    var visa := FlagField(loc, m, "visa_pass", co);
    var salary := FlagField(loc, m, "salary_pass", co);
    if remote.Ok? && visa.Ok? && salary.Ok? then
      Ok(HardFilterStatus(remote.value, visa.value, salary.value))
    else Err(Errors(remote) + Errors(visa) + Errors(salary))
  }

  /** `Optional[HardFilterStatus]`: null is None, an object is validated, anything else fails. */
  function OptionalFilterStatus(loc: string, j: Json, co: Coercion): Checked<Option<HardFilterStatus>> {
    match j
    case JNull => Ok(None)
    case JObject(m) =>
      (match FilterStatus(loc, m, co)
       case Ok(h) => Ok(Some(h))
       case Err(e) => Err(e))
    case _ => Err([FieldError(loc, NotAFilterStatus)])
  }

  // The six fields of `AnalysisResult`: each validated when its key is present and set to its
  // declared default when absent.

  function ScoreField(m: map<string, Json>, co: Coercion): Checked<int> {
    if "match_score" in m then Scalar("match_score", co.toInt(m["match_score"])) else Ok(0)
  }

  function VerdictField(m: map<string, Json>, co: Coercion): Checked<string> {
    if "verdict" in m then Scalar("verdict", co.toStr(m["verdict"])) else Ok("PENDING")
  }

  function SummaryField(m: map<string, Json>, co: Coercion): Checked<Option<string>> {
    if "reasoning_summary" in m then OptionalStr("reasoning_summary", m["reasoning_summary"], co)
    else Ok(None)
  }

  function ListField(m: map<string, Json>, key: string, co: Coercion): (c: Checked<seq<string>>)
    ensures c.Err? ==> |c.error| > 0
  {
    if key in m then
      StrListErrorsNonEmpty(key, m[key], co);
      StrList(key, m[key], co)
    else Ok([])
  }

  function CheckField(m: map<string, Json>, co: Coercion): Checked<Option<HardFilterStatus>> {
    if "hard_filter_check" in m then OptionalFilterStatus("hard_filter_check", m["hard_filter_check"], co)
    else Ok(None)
  }

  // ---------------------------------------------------------------------------------------------
  // What validation accepts, field by field
  // ---------------------------------------------------------------------------------------------

  /** pydantic accepts the value `j` under `key`: `int` and `str` fields need a coercible value,
      `Optional[str]` also null, `List[str]` an array of coercible items, and
      `Optional[HardFilterStatus]` null or an object whose present flags coerce to `bool`. Keys
      outside the schema accept anything. */
  ghost predicate FieldAccepted(key: string, j: Json, co: Coercion) {
    if key == "match_score" then co.toInt(j).Ok?
    else if key == "verdict" then co.toStr(j).Ok?
    else if key == "reasoning_summary" then j.JNull? || co.toStr(j).Ok?
    else if key == "pros" || key == "cons" then
      j.JArray? && forall i :: 0 <= i < |j.items| ==> co.toStr(j.items[i]).Ok?
    else if key == "hard_filter_check" then
      j.JNull? || (j.JObject? && forall f :: f in j.fields && f in FilterFields ==> co.toBool(j.fields[f]).Ok?)
    else true
  }

  /** Every present field of `m` is accepted. */
  ghost predicate Validates(m: map<string, Json>, co: Coercion) {
    forall key :: key in m ==> FieldAccepted(key, m[key], co)
  }

  lemma {:induction false} StrItemsOk(loc: string, items: seq<Json>, k: nat, co: Coercion)
    requires k <= |items|
    ensures StrItems(loc, items, k, co).Ok? <==> forall i :: k <= i < |items| ==> co.toStr(items[i]).Ok?
    decreases |items| - k
  {
    if k < |items| {
      StrItemsOk(loc, items, k + 1, co);
    }
  }

  lemma ListFieldOk(m: map<string, Json>, key: string, co: Coercion)
    requires key == "pros" || key == "cons"
    ensures ListField(m, key, co).Ok? <==> (key in m ==> FieldAccepted(key, m[key], co))
  {
    if key in m && m[key].JArray? {
      StrItemsOk(key, m[key].items, 0, co);
    }
  }

  lemma CheckFieldOk(m: map<string, Json>, co: Coercion)
    ensures CheckField(m, co).Ok? <==>
      ("hard_filter_check" in m ==> FieldAccepted("hard_filter_check", m["hard_filter_check"], co))
  {
    if "hard_filter_check" in m && m["hard_filter_check"].JObject? {
      var n := m["hard_filter_check"].fields;
      assert FilterFields == {"remote_pass", "visa_pass", "salary_pass"};
      if FilterStatus("hard_filter_check", n, co).Ok? {
        forall f | f in n && f in FilterFields ensures co.toBool(n[f]).Ok? {
        }
      }
    }
  }

  /** The six field checks all pass exactly when every present field is accepted. */
  lemma FieldsOk(m: map<string, Json>, co: Coercion)
    ensures (&& ScoreField(m, co).Ok? && VerdictField(m, co).Ok? && SummaryField(m, co).Ok?
             && ListField(m, "pros", co).Ok? && ListField(m, "cons", co).Ok? && CheckField(m, co).Ok?)
        <==> Validates(m, co)
  {
    ListFieldOk(m, "pros", co);
    ListFieldOk(m, "cons", co);
    CheckFieldOk(m, co);
    if !Validates(m, co) {
      var key :| key in m && !FieldAccepted(key, m[key], co);
      assert key in ResultFields;
    }
  }

  /** `AnalysisResult(**data)` for a decoded value `data`. */
  function Build(data: Json, co: Coercion): (r: Result<AnalysisResult, Failure>)
    ensures !data.JObject? ==> r == Err(NotMapping(TypeName(data)))
    ensures data.JObject? ==> (r.Ok? <==> Validates(data.fields, co))
    ensures r.Err? && data.JObject? ==>
      r.error.ValidationError? && r.error.model == "AnalysisResult" && |r.error.errors| > 0
    ensures data.JObject? && "match_score" in data.fields && co.toInt(data.fields["match_score"]).Err? ==>
      r.Err? && FieldError("match_score", co.toInt(data.fields["match_score"]).error) in r.error.errors
    ensures data.JObject? && "verdict" in data.fields && co.toStr(data.fields["verdict"]).Err? ==>
      r.Err? && FieldError("verdict", co.toStr(data.fields["verdict"]).error) in r.error.errors
    ensures data.JObject? && "pros" in data.fields && !data.fields["pros"].JArray? ==>
      r.Err? && FieldError("pros", NotAList) in r.error.errors
    ensures data.JObject? && "cons" in data.fields && !data.fields["cons"].JArray? ==>
      r.Err? && FieldError("cons", NotAList) in r.error.errors
  {
    match data
    case JObject(m) =>
      FieldsOk(m, co);
      var score := ScoreField(m, co);
      var verdict := VerdictField(m, co);
      var summary := SummaryField(m, co);
      var pros := ListField(m, "pros", co);
      var cons := ListField(m, "cons", co);
      var check := CheckField(m, co);
      if score.Ok? && verdict.Ok? && summary.Ok? && pros.Ok? && cons.Ok? && check.Ok? then
        Ok(AnalysisResult(score.value, verdict.value, summary.value, pros.value, cons.value, check.value))
      else
        Err(ValidationError("AnalysisResult", Errors(score) + Errors(verdict) + Errors(summary)
                                              + Errors(pros) + Errors(cons) + Errors(check)))
    case _ => Err(NotMapping(TypeName(data)))
  }

  /** A failed list check always names at least one field error. */
  lemma {:induction false} StrItemsErrorsNonEmpty(loc: string, items: seq<Json>, k: nat, co: Coercion)
    requires k <= |items|
    ensures StrItems(loc, items, k, co).Err? ==> |StrItems(loc, items, k, co).error| > 0
    decreases |items| - k
  {
    if k < |items| {
      StrItemsErrorsNonEmpty(loc, items, k + 1, co);
    }
  }

  lemma StrListErrorsNonEmpty(loc: string, j: Json, co: Coercion)
    ensures StrList(loc, j, co).Err? ==> |StrList(loc, j, co).error| > 0
  {
    if j.JArray? {
      StrItemsErrorsNonEmpty(loc, j.items, 0, co);
    }
  }

  // ---------------------------------------------------------------------------------------------
  // The inverse direction: the JSON object a result is written as
  // ---------------------------------------------------------------------------------------------

  function StrArray(xs: seq<string>): (j: Json)
    ensures j.JArray? && |j.items| == |xs|
    ensures forall i :: 0 <= i < |xs| ==> j.items[i] == JStr(xs[i])
  {
    JArray(seq(|xs|, i requires 0 <= i < |xs| => JStr(xs[i])))
  }

  function FilterStatusJson(h: HardFilterStatus): Json {
    JObject(map["remote_pass" := JBool(h.remotePass), "visa_pass" := JBool(h.visaPass),
                "salary_pass" := JBool(h.salaryPass)])
  }

  /** The JSON object holding every field of `r` (what `model_dump()` followed by `json.dumps`
      writes, and what a well-behaved model is asked to reply with). */
  function ToJson(r: AnalysisResult): Json {
    JObject(map[
      "match_score" := JInt(r.matchScore),
      "verdict" := JStr(r.verdict),
      "reasoning_summary" := (match r.reasoningSummary case None => JNull case Some(s) => JStr(s)),
      "pros" := StrArray(r.pros),
      "cons" := StrArray(r.cons),
      "hard_filter_check" :=
        (match r.hardFilterCheck case None => JNull case Some(h) => FilterStatusJson(h))])
  }

  lemma {:induction false} StrItemsOfStrings(loc: string, xs: seq<string>, k: nat, co: Coercion)
    requires Faithful(co)
    requires k <= |xs|
    ensures StrItems(loc, StrArray(xs).items, k, co) == Ok(xs[k..])
    decreases |xs| - k
  {
    if k < |xs| {
      StrItemsOfStrings(loc, xs, k + 1, co);
      assert co.toStr(JStr(xs[k])) == Ok(xs[k]);
      assert xs[k..] == [xs[k]] + xs[k + 1..];
    }
  }

  /** Round trip: validating the JSON form of any result gives that result back. */
  lemma ToJsonFields(r: AnalysisResult)
    ensures var m := ToJson(r).fields;
      && m.Keys == ResultFields
      && m["match_score"] == JInt(r.matchScore)
      && m["verdict"] == JStr(r.verdict)
      && m["reasoning_summary"] == (match r.reasoningSummary case None => JNull case Some(s) => JStr(s))
      && m["pros"] == StrArray(r.pros)
      && m["cons"] == StrArray(r.cons)
      && m["hard_filter_check"]
         == (match r.hardFilterCheck case None => JNull case Some(h) => FilterStatusJson(h))
  {
  }

  lemma BuildToJson(r: AnalysisResult, co: Coercion)
    requires Faithful(co)
    ensures Build(ToJson(r), co) == Ok(r)
  {
    var m := ToJson(r).fields;
    ToJsonScalarFields(r, co);
    ToJsonListFields(r, co);
    ToJsonCheckField(r, co);
    assert Build(ToJson(r), co)
        == Ok(AnalysisResult(r.matchScore, r.verdict, r.reasoningSummary, r.pros, r.cons, r.hardFilterCheck));
  }

  lemma ToJsonScalarFields(r: AnalysisResult, co: Coercion)
    requires Faithful(co)
    ensures ScoreField(ToJson(r).fields, co) == Ok(r.matchScore)
    ensures VerdictField(ToJson(r).fields, co) == Ok(r.verdict)
    ensures SummaryField(ToJson(r).fields, co) == Ok(r.reasoningSummary)
  {
    ToJsonFields(r);
    assert co.toInt(JInt(r.matchScore)) == Ok(r.matchScore);
    assert co.toStr(JStr(r.verdict)) == Ok(r.verdict);
    if r.reasoningSummary.Some? {
      assert co.toStr(JStr(r.reasoningSummary.value)) == Ok(r.reasoningSummary.value);
    }
  }

  lemma ToJsonListFields(r: AnalysisResult, co: Coercion)
    requires Faithful(co)
    ensures ListField(ToJson(r).fields, "pros", co) == Ok(r.pros)
    ensures ListField(ToJson(r).fields, "cons", co) == Ok(r.cons)
  {
    ToJsonFields(r);
    StrItemsOfStrings("pros", r.pros, 0, co);
    assert r.pros[0..] == r.pros;
    StrItemsOfStrings("cons", r.cons, 0, co);
    assert r.cons[0..] == r.cons;
  }

  lemma ToJsonCheckField(r: AnalysisResult, co: Coercion)
    requires Faithful(co)
    ensures CheckField(ToJson(r).fields, co) == Ok(r.hardFilterCheck)
  {
    ToJsonFields(r);
    if r.hardFilterCheck.Some? {
      var h := r.hardFilterCheck.value;
      assert co.toBool(JBool(h.remotePass)) == Ok(h.remotePass);
      assert co.toBool(JBool(h.visaPass)) == Ok(h.visaPass);
      assert co.toBool(JBool(h.salaryPass)) == Ok(h.salaryPass);
    }
  }

  /** Keys outside the schema have no influence on the outcome. */
  lemma BuildIgnoresUnknownKeys(m: map<string, Json>, co: Coercion)
    ensures Build(JObject(m), co) == Build(JObject(map k | k in m && k in ResultFields :: m[k]), co)
  {
  }

  /** An empty object validates to the declared defaults; in particular an absent
      `hard_filter_check` stays absent rather than becoming an all-pass status. */
  lemma BuildEmptyObject(co: Coercion)
    ensures Build(JObject(map[]), co) == Ok(DefaultAnalysisResult)
    ensures Build(JObject(map[]), co).value.hardFilterCheck == None
  {
  }

  /** An empty nested object gives a status whose three checks all pass. */
  lemma BuildEmptyFilterStatus(co: Coercion)
    ensures Build(JObject(map["hard_filter_check" := JObject(map[])]), co)
         == Ok(DefaultAnalysisResult.(hardFilterCheck := Some(DefaultHardFilterStatus)))
  {
  }

  /** A `pros` value that is not a list is the one validation error of `{"pros": v}`. */
  lemma BuildNonListPros(v: Json, co: Coercion)
    requires !v.JArray?
    ensures Build(JObject(map["pros" := v]), co)
         == Err(ValidationError("AnalysisResult", [FieldError("pros", NotAList)]))
  {
    var m := map["pros" := v];
    assert ScoreField(m, co) == Ok(0);
    assert VerdictField(m, co) == Ok("PENDING");
    assert SummaryField(m, co) == Ok(None);
    assert ListField(m, "pros", co) == Err([FieldError("pros", NotAList)]);
    assert ListField(m, "cons", co) == Ok([]);
    assert CheckField(m, co) == Ok(None);
    assert [] + [] + [] + [FieldError("pros", NotAList)] + [] + [] == [FieldError("pros", NotAList)];
  }

  /** No range check: every integer is accepted as a score, 150 and -5 included. */
  lemma BuildAnyScore(n: int, co: Coercion)
    requires Faithful(co)
    ensures Build(JObject(map["match_score" := JInt(n)]), co)
         == Ok(DefaultAnalysisResult.(matchScore := n))
  {
    assert co.toInt(JInt(n)) == Ok(n);
  }

  /** No enumeration: every string is accepted as a verdict. */
  lemma BuildAnyVerdict(v: string, co: Coercion)
    requires Faithful(co)
    ensures Build(JObject(map["verdict" := JStr(v)]), co)
         == Ok(DefaultAnalysisResult.(verdict := v))
  {
    assert co.toStr(JStr(v)) == Ok(v);
  }
}

=== FILE: scraper.dfy ===
/** `scrape_job_url` (app/tools/scraper.py): two fetch attempts in a fixed order, then the visible
    text of the page, cleaned line by line and phrase by phrase. Both fetchers and the HTML-to-text
    step (parsing, removing non-content elements, `get_text`) are oracles. */
module Scraper {

  import opened Wrappers
  import opened Text
  import opened Failures

  datatype Fetcher = Browser | Googlebot

  /** What one fetch attempt yields: the page, or the text of the exception it raised. */
  datatype FetchOutcome = Fetched(page: string) | FetchFailed(detail: string)

  /** The browser-impersonating client, the Googlebot request, and the visible text of a page. */
  datatype Web = Web(
    browser: string -> FetchOutcome,
    googlebot: string -> FetchOutcome,
    visibleText: string -> string)

  /** The scraped text (or the exception raised) and the fetchers tried, in order. */
  datatype ScrapeRun = ScrapeRun(text: Result<string, Failure>, attempts: seq<Fetcher>)

  /** Phrases inside a line are separated by two spaces. */
  const PhraseSeparator := "  "

  // ---------------------------------------------------------------------------------------------
  // Whitespace cleanup (lines 48-50)
  // ---------------------------------------------------------------------------------------------

  /** The pieces, stripped, with the empty ones dropped. */
  function KeepChunks(pieces: seq<string>): (chunks: seq<string>)
    ensures forall i :: 0 <= i < |chunks| ==> |chunks[i]| > 0 && IsStripped(chunks[i])
    ensures |chunks| <= |pieces|
    ensures forall i :: 0 <= i < |pieces| && Strip(pieces[i]) != "" ==> Strip(pieces[i]) in chunks
  {
    if |pieces| == 0 then []
    else (if Strip(pieces[0]) != "" then [Strip(pieces[0])] else []) + KeepChunks(pieces[1..])
  }

  function LineChunks(line: string): seq<string> {
    KeepChunks(Split(Strip(line), PhraseSeparator))
  }

  function ChunksOfLines(lines: seq<string>): seq<string> {
    if |lines| == 0 then [] else LineChunks(lines[0]) + ChunksOfLines(lines[1..])
  }

  /** The chunks of a text, in order: every line stripped and split on double spaces, every piece
      stripped, the empty ones dropped. */
  function Chunks(text: string): seq<string> {
    ChunksOfLines(SplitLines(text))
  }

  /** The cleaned text: the chunks joined by single line breaks. */
  function CleanText(text: string): string {
    Join(Chunks(text), "\n")
  }

  /** What every output line is: non-empty, without surrounding whitespace, without a line break
      and without a double space. */
  ghost predicate GoodChunk(c: string) {
    |c| > 0 && IsStripped(c) && NoLineBreak(c) && !Contains(c, PhraseSeparator)
  }

  lemma StripGood(p: string)
    requires NoLineBreak(p) && !Contains(p, PhraseSeparator)
    ensures Strip(p) != "" ==> GoodChunk(Strip(p))
  {
    var lo := SkipSpaces(p, 0);
    var r := Strip(p);
    SliceContains(p, lo, lo + |r|, PhraseSeparator);
    forall i | 0 <= i < |r| ensures !IsLineBreak(r[i]) {
      assert r[i] == p[lo..lo + |r|][i];
    }
  }

  lemma {:induction false} KeepChunksGood(pieces: seq<string>)
    requires forall i :: 0 <= i < |pieces| ==>
      NoLineBreak(pieces[i]) && !Contains(pieces[i], PhraseSeparator)
    ensures forall i :: 0 <= i < |KeepChunks(pieces)| ==> GoodChunk(KeepChunks(pieces)[i])
    decreases |pieces|
  {
    if |pieces| > 0 {
      KeepChunksGood(pieces[1..]);
      StripGood(pieces[0]);
    }
  }

  lemma LineChunksGood(line: string)
    requires NoLineBreak(line)
    ensures forall i :: 0 <= i < |LineChunks(line)| ==> GoodChunk(LineChunks(line)[i])
  {
    var stripped := Strip(line);
    var pieces := Split(stripped, PhraseSeparator);
    StripIsSubsequence(line);
    SplitPiecesSubsequence(stripped, PhraseSeparator);
    forall i | 0 <= i < |pieces| ensures NoLineBreak(pieces[i]) {
      PartOfFlatten(pieces, i);
      SubsequenceTrans(pieces[i], Flatten(pieces), stripped);
      SubsequenceTrans(pieces[i], stripped, line);
      SubsequenceNoLineBreak(pieces[i], line);
    }
    KeepChunksGood(pieces);
  }

  lemma {:induction false} ChunksOfLinesGood(lines: seq<string>)
    requires forall i :: 0 <= i < |lines| ==> NoLineBreak(lines[i])
    ensures forall i :: 0 <= i < |ChunksOfLines(lines)| ==> GoodChunk(ChunksOfLines(lines)[i])
    decreases |lines|
  {
    if |lines| > 0 {
      LineChunksGood(lines[0]);
      ChunksOfLinesGood(lines[1..]);
    }
  }

  /** Every chunk of every text is a good output line. */
  lemma ChunksGood(text: string)
    ensures forall i :: 0 <= i < |Chunks(text)| ==> GoodChunk(Chunks(text)[i])
  {
    ChunksOfLinesGood(SplitLines(text));
  }

  /** The lines of the cleaned text are exactly the chunks: the cleanup adds no empty line, no
      trailing line break, and never joins or splits a chunk. */
  lemma CleanTextLines(text: string)
    ensures SplitLines(CleanText(text)) == Chunks(text)
  {
    ChunksGood(text);
    SplitLinesJoin(Chunks(text));
  }

  lemma {:induction false} JoinEnds(parts: seq<string>, sep: string)
    requires |parts| > 0
    requires forall i :: 0 <= i < |parts| ==> |parts[i]| > 0
    ensures var j := Join(parts, sep);
      |j| > 0 && j[0] == parts[0][0] && j[|j| - 1] == parts[|parts| - 1][|parts[|parts| - 1]| - 1]
    decreases |parts|
  {
    if |parts| > 1 {
      JoinEnds(parts[1..], sep);
    }
  }

  /** The cleaned text as a whole has no leading or trailing whitespace, so in particular it does
      not end with a line break. */
  lemma CleanTextStripped(text: string)
    ensures IsStripped(CleanText(text))
  {
    var cs := Chunks(text);
    ChunksGood(text);
    if |cs| > 0 {
      JoinEnds(cs, "\n");
    }
  }

  lemma {:induction false} KeepChunksInOrder(pieces: seq<string>)
    ensures IsSubsequence(Flatten(KeepChunks(pieces)), Flatten(pieces))
    decreases |pieces|
  {
    if |pieces| == 0 {
    } else {
      var head := if Strip(pieces[0]) != "" then [Strip(pieces[0])] else [];
      KeepChunksInOrder(pieces[1..]);
      FlattenConcat(head, KeepChunks(pieces[1..]));
      assert IsSubsequence(Flatten(head), pieces[0]) by {
        StripIsSubsequence(pieces[0]);
        if Strip(pieces[0]) != "" {
          assert head[1..] == [];
          assert Flatten(head) == Strip(pieces[0]) + "";
          assert Strip(pieces[0]) + "" == Strip(pieces[0]);
        } else {
          EmptyIsSubsequence(pieces[0]);
        }
      }
      SubsequenceConcat(Flatten(head), pieces[0], Flatten(KeepChunks(pieces[1..])),
                        Flatten(pieces[1..]));
    }
  }

  lemma {:induction false} ChunksOfLinesInOrder(lines: seq<string>)
    ensures IsSubsequence(Flatten(ChunksOfLines(lines)), Flatten(lines))
    decreases |lines|
  {
    if |lines| == 0 {
    } else {
      var line := lines[0];
      var stripped := Strip(line);
      var pieces := Split(stripped, PhraseSeparator);
      KeepChunksInOrder(pieces);
      SplitPiecesSubsequence(stripped, PhraseSeparator);
      StripIsSubsequence(line);
      SubsequenceTrans(Flatten(LineChunks(line)), Flatten(pieces), stripped);
      SubsequenceTrans(Flatten(LineChunks(line)), stripped, line);
      ChunksOfLinesInOrder(lines[1..]);
      FlattenConcat(LineChunks(line), ChunksOfLines(lines[1..]));
      SubsequenceConcat(Flatten(LineChunks(line)), line, Flatten(ChunksOfLines(lines[1..])),
                        Flatten(lines[1..]));
    }
  }

  /** The chunks keep the text's order and only ever delete characters from it. */
  lemma ChunksInOrder(text: string)
    ensures IsSubsequence(Flatten(Chunks(text)), text)
  {
    ChunksOfLinesInOrder(SplitLines(text));
    SplitLinesSubsequence(text);
    SubsequenceTrans(Flatten(Chunks(text)), Flatten(SplitLines(text)), text);
  }

  /** The pieces are filtered one by one: the chunks of two runs of pieces are the chunks of each. */
  lemma {:induction false} KeepChunksAppend(a: seq<string>, b: seq<string>)
    ensures KeepChunks(a + b) == KeepChunks(a) + KeepChunks(b)
    decreases |a|
  {
    if |a| == 0 {
      assert a + b == b;
    } else {
      assert (a + b)[0] == a[0];
      assert (a + b)[1..] == a[1..] + b;
      KeepChunksAppend(a[1..], b);
    }
  }

  /** Stripping the pieces and dropping the blank ones loses whitespace only. */
  lemma {:induction false} KeepChunksNonSpace(pieces: seq<string>)
    ensures NonSpace(Flatten(KeepChunks(pieces))) == NonSpace(Flatten(pieces))
    decreases |pieces|
  {
    if |pieces| > 0 {
      var p := pieces[0];
      var head := if Strip(p) != "" then [Strip(p)] else [];
      KeepChunksNonSpace(pieces[1..]);
      FlattenConcat(head, KeepChunks(pieces[1..]));
      NonSpaceConcat(Flatten(head), Flatten(KeepChunks(pieces[1..])));
      NonSpaceConcat(p, Flatten(pieces[1..]));
      NonSpaceStrip(p);
      assert NonSpace(Flatten(head)) == NonSpace(p) by {
        if Strip(p) != "" {
          assert head[1..] == [];
          assert Flatten(head) == Strip(p) + "";
          assert Strip(p) + "" == Strip(p);
        }
      }
    }
  }

  lemma LineChunksNonSpace(line: string)
    ensures NonSpace(Flatten(LineChunks(line))) == NonSpace(line)
  {
    KeepChunksNonSpace(Split(Strip(line), PhraseSeparator));
    assert AllSpace(PhraseSeparator);
    NonSpaceSplit(Strip(line), PhraseSeparator);
    NonSpaceStrip(line);
  }

  lemma {:induction false} ChunksOfLinesNonSpace(lines: seq<string>)
    ensures NonSpace(Flatten(ChunksOfLines(lines))) == NonSpace(Flatten(lines))
    decreases |lines|
  {
    if |lines| > 0 {
      LineChunksNonSpace(lines[0]);
      ChunksOfLinesNonSpace(lines[1..]);
      FlattenConcat(LineChunks(lines[0]), ChunksOfLines(lines[1..]));
      NonSpaceConcat(Flatten(LineChunks(lines[0])), Flatten(ChunksOfLines(lines[1..])));
      NonSpaceConcat(lines[0], Flatten(lines[1..]));
    }
  }

  /** The cleanup changes whitespace only: every other character of the text is kept, in order,
      and nothing else is added. */
  lemma CleanTextKeepsNonSpace(text: string)
    ensures NonSpace(CleanText(text)) == NonSpace(text)
  {
    assert AllSpace("\n");
    NonSpaceJoin(Chunks(text), "\n");
    ChunksOfLinesNonSpace(SplitLines(text));
    NonSpaceSplitLines(text);
  }

  lemma {:induction false} ChunksOfGoodLines(cs: seq<string>)
    requires forall i :: 0 <= i < |cs| ==> GoodChunk(cs[i])
    ensures ChunksOfLines(cs) == cs
    decreases |cs|
  {
    if |cs| > 0 {
      var c := cs[0];
      StripStripped(c);
      SplitWithoutSeparator(c, PhraseSeparator);
      assert [c][1..] == [];
      assert KeepChunks([c]) == [c] + [];
      ChunksOfGoodLines(cs[1..]);
      assert cs == [c] + cs[1..];
    }
  }

  /** Cleaning is idempotent: cleaned text comes through a second cleanup unchanged. */
  lemma CleanTextIdempotent(text: string)
    ensures CleanText(CleanText(text)) == CleanText(text)
  {
    CleanTextLines(text);
    ChunksGood(text);
    ChunksOfGoodLines(Chunks(text));
  }

  // ---------------------------------------------------------------------------------------------
  // Fetching (lines 14-36)
  // ---------------------------------------------------------------------------------------------

  function ScrapeJobUrl(url: string, web: Web): (r: ScrapeRun)
    ensures |r.attempts| >= 1 && r.attempts[0] == Browser
    ensures r.attempts == [Browser] <==> web.browser(url).Fetched?
    ensures r.attempts == [Browser] || r.attempts == [Browser, Googlebot]
    ensures web.browser(url).Fetched? ==>
      r.text == Ok(CleanText(web.visibleText(web.browser(url).page)))
    ensures web.browser(url).FetchFailed? && web.googlebot(url).Fetched? ==>
      r.text == Ok(CleanText(web.visibleText(web.googlebot(url).page)))
    ensures r.text.Err? <==> web.browser(url).FetchFailed? && web.googlebot(url).FetchFailed?
    ensures r.text.Err? ==> r.text.error == UrlUnreachable(web.googlebot(url).detail)
  {
    match web.browser(url)
    case Fetched(page) => ScrapeRun(Ok(CleanText(web.visibleText(page))), [Browser])
    case FetchFailed(_) =>
      match web.googlebot(url)
      case Fetched(page) => ScrapeRun(Ok(CleanText(web.visibleText(page))), [Browser, Googlebot])
      case FetchFailed(detail) => ScrapeRun(Err(UrlUnreachable(detail)), [Browser, Googlebot])
  }

  /** Whatever page was fetched, the scraped text's lines are non-empty, stripped and free of double
      spaces, and the text neither starts nor ends with whitespace. */
  lemma ScrapedTextIsClean(url: string, web: Web)
    requires ScrapeJobUrl(url, web).text.Ok?
    ensures var t := ScrapeJobUrl(url, web).text.value;
      IsStripped(t) && forall i :: 0 <= i < |SplitLines(t)| ==> GoodChunk(SplitLines(t)[i])
  {
    var page := if web.browser(url).Fetched? then web.browser(url).page else web.googlebot(url).page;
    var visible := web.visibleText(page);
    CleanTextLines(visible);
    CleanTextStripped(visible);
    ChunksGood(visible);
  }
}

=== FILE: search.dfy ===
/** `search_company_reputation` (app/tools/search.py): three fixed reputation queries against a
    search session, each result rendered as one line, per-query failures rendered as error lines.
    The search engine is an oracle: opening the session may fail, and each query yields its hits
    or the text of the exception it raised. */
module Search {

  import opened Wrappers
  import opened Text

  /** One search hit; a field the engine left out is `None` and prints as "None". */
  datatype Hit = Hit(title: Option<string>, href: Option<string>, body: Option<string>)

  /** The search session: whether entering it succeeded, and what each `text(query, limit)` call
      yields. */
  datatype Session = Session(
    opening: Result<(), string>,
    text: (string, nat) -> Result<seq<Hit>, string>)

  /** What one call of `search_company_reputation` returns, with the queries it issued, in order,
      each with the result limit passed. */
  datatype SearchRun = SearchRun(output: string, queries: seq<(string, nat)>)

  /** The number of results every query asks for, whatever `max_results` says. */
  const ResultsPerQuery: nat := 3

  const QuerySuffixes := [" tech company reviews glassdoor reddit blind", " layoffs news",
                          " work culture reviews"]

  /** The three queries for a company, in order. */
  function Queries(company: string): (qs: seq<string>)
    ensures |qs| == 3
    ensures forall i :: 0 <= i < 3 ==> qs[i] == company + QuerySuffixes[i]
  {
    [company + QuerySuffixes[0], company + QuerySuffixes[1], company + QuerySuffixes[2]]
  }

  /** Python's f-string rendering of an optional field. */
  function Shown(v: Option<string>): string {
    match v
    case Some(s) => s
    case None => "None"
  }

  function HitLine(h: Hit): string {
    "- [" + Shown(h.title) + "](" + Shown(h.href) + "): " + Shown(h.body)
  }

  function HitLines(hits: seq<Hit>): (lines: seq<string>)
    ensures |lines| == |hits|
    ensures forall i :: 0 <= i < |hits| ==> lines[i] == HitLine(hits[i])
  {
    if |hits| == 0 then [] else [HitLine(hits[0])] + HitLines(hits[1..])
  }

  function Header(query: string): string {
    "--- Results for '" + query + "' ---"
  }

  function ErrorLine(query: string, detail: string): string {
    "Error searching for '" + query + "': " + detail
  }

  /** The lines one query contributes. */
  function QueryLines(query: string, outcome: Result<seq<Hit>, string>): (lines: seq<string>)
    ensures outcome.Err? ==> lines == [ErrorLine(query, outcome.error)]
    ensures outcome.Ok? && |outcome.value| == 0 ==> lines == []
    ensures outcome.Ok? && |outcome.value| > 0 ==>
      && |lines| == |outcome.value| + 1
      && lines[0] == Header(query)
      && forall i :: 0 <= i < |outcome.value| ==> lines[i + 1] == HitLine(outcome.value[i])
  {
    match outcome
    case Err(detail) => [ErrorLine(query, detail)]
    case Ok(hits) => if |hits| == 0 then [] else [Header(query)] + HitLines(hits)
  }

  /** The lines query `q` contributes; the query is always issued with the fixed limit. */
  function Lines(q: string, session: Session): seq<string> {
    QueryLines(q, session.text(q, ResultsPerQuery))
  }

  /** The lines of the queries `qs`, each run whatever happened to the ones before it. */
  function CollectLines(qs: seq<string>, session: Session): seq<string> {
    if |qs| == 0 then []
    else Lines(qs[0], session) + CollectLines(qs[1..], session)
  }

  function Issued(qs: seq<string>): (calls: seq<(string, nat)>)
    ensures |calls| == |qs|
    ensures forall i :: 0 <= i < |qs| ==> calls[i] == (qs[i], ResultsPerQuery)
  {
    if |qs| == 0 then [] else [(qs[0], ResultsPerQuery)] + Issued(qs[1..])
  }

  /** `search_company_reputation(company, max_results)`. */
  function SearchCompanyReputation(company: string, maxResults: int, session: Session)
    : (r: SearchRun)
    ensures company == "" ==> r == SearchRun("", [])
    ensures company != "" && session.opening.Err? ==>
      r == SearchRun("Error performing search: " + session.opening.error, [])
    ensures company != "" && session.opening.Ok? ==>
      && |r.queries| == 3
      && forall i :: 0 <= i < 3 ==> r.queries[i] == (company + QuerySuffixes[i], ResultsPerQuery)
  {
    if company == "" then SearchRun("", [])
    else
      match session.opening
      case Err(detail) => SearchRun("Error performing search: " + detail, [])
      case Ok(_) =>
        var qs := Queries(company);
        SearchRun(Join(CollectLines(qs, session), "\n"), Issued(qs))
  }

  lemma CollectOne(qs: seq<string>, session: Session)
    requires |qs| == 1
    ensures CollectLines(qs, session) == Lines(qs[0], session)
  {
    assert CollectLines(qs[1..], session) == [];
  }

  lemma CollectTwo(qs: seq<string>, session: Session)
    requires |qs| == 2
    ensures CollectLines(qs, session) == Lines(qs[0], session) + Lines(qs[1], session)
  {
    CollectOne(qs[1..], session);
  }

  lemma CollectThree(qs: seq<string>, session: Session)
    requires |qs| == 3
    ensures CollectLines(qs, session)
         == Lines(qs[0], session) + Lines(qs[1], session) + Lines(qs[2], session)
  {
    CollectTwo(qs[1..], session);
  }

  /** With the session open, the output is the three queries' line groups, in query order, joined
      by single line breaks; a failing query does not stop the ones after it. */
  lemma SearchOutputLines(company: string, maxResults: int, session: Session)
    requires company != "" && session.opening.Ok?
    ensures var qs := Queries(company);
      SearchCompanyReputation(company, maxResults, session).output
      == Join(Lines(qs[0], session) + Lines(qs[1], session) + Lines(qs[2], session), "\n")
  {
    CollectThree(Queries(company), session);
  }

  /** The `max_results` argument has no effect on what is searched or returned. */
  lemma MaxResultsIgnored(company: string, m1: int, m2: int, session: Session)
    ensures SearchCompanyReputation(company, m1, session)
         == SearchCompanyReputation(company, m2, session)
  {
  }

  /** When every query fails, the output is the three error lines and nothing else. */
  lemma AllQueriesFail(company: string, maxResults: int, session: Session)
    requires company != "" && session.opening.Ok?
    requires forall q :: session.text(q, ResultsPerQuery).Err?
    ensures var qs := Queries(company);
      SearchCompanyReputation(company, maxResults, session).output
      == ErrorLine(qs[0], session.text(qs[0], ResultsPerQuery).error) + "\n"
         + ErrorLine(qs[1], session.text(qs[1], ResultsPerQuery).error) + "\n"
         + ErrorLine(qs[2], session.text(qs[2], ResultsPerQuery).error)
  {
    var qs := Queries(company);
    SearchOutputLines(company, maxResults, session);
    var e0 := ErrorLine(qs[0], session.text(qs[0], ResultsPerQuery).error);
    var e1 := ErrorLine(qs[1], session.text(qs[1], ResultsPerQuery).error);
    var e2 := ErrorLine(qs[2], session.text(qs[2], ResultsPerQuery).error);
    assert [e0] + [e1] + [e2] == [e0, e1, e2];
    assert [e0, e1, e2][1..] == [e1, e2];
    assert [e1, e2][1..] == [e2];
    assert Join([e1, e2], "\n") == e1 + "\n" + e2;
    assert Join([e0, e1, e2], "\n") == e0 + "\n" + (e1 + "\n" + e2);
    assert e0 + "\n" + (e1 + "\n" + e2) == e0 + "\n" + e1 + "\n" + e2;
  }
}

=== FILE: text.dfy ===
/** Python's string operations over `seq<char>`, as the core uses them: `strip`, `replace(x, "")`,
    `split(sep)`, `splitlines`, `join`, `lower`, slicing `s[:n]`, plus the subsequence and
    substring relations used to state what these operations keep. */
module Text {

  import opened Wrappers

  /** The characters `str.isspace` accepts (and so `strip()`, `split()` and the regex class `\s`). */
  predicate IsSpace(c: char) {
    || c == ' ' || c == '\t' || c == '\n' || c == '\r' || c == '\U{B}' || c == '\U{C}'
    || ('\U{1C}' <= c <= '\U{1F}')
    || c == '\U{85}' || c == '\U{A0}' || c == '\U{1680}'
    || ('\U{2000}' <= c <= '\U{200A}')
    || c == '\U{2028}' || c == '\U{2029}' || c == '\U{202F}' || c == '\U{205F}' || c == '\U{3000}'
  }

  /** The line boundaries `str.splitlines` recognises (`\r\n` is handled as one boundary there). */
  predicate IsLineBreak(c: char) {
    || c == '\n' || c == '\r' || c == '\U{B}' || c == '\U{C}'
    || c == '\U{1C}' || c == '\U{1D}' || c == '\U{1E}'
    || c == '\U{85}' || c == '\U{2028}' || c == '\U{2029}'
  }

  predicate AllSpace(s: string) {
    forall i :: 0 <= i < |s| ==> IsSpace(s[i])
  }

  predicate NoLineBreak(s: string) {
    forall i :: 0 <= i < |s| ==> !IsLineBreak(s[i])
  }

  /** A string `strip()` leaves unchanged: empty, or starting and ending with a non-space. */
  predicate IsStripped(s: string) {
    |s| == 0 || (!IsSpace(s[0]) && !IsSpace(s[|s| - 1]))
  }

  // ---------------------------------------------------------------------------------------------
  // Subsequences and substrings
  // ---------------------------------------------------------------------------------------------

  /** `a` is obtained from `b` by deleting elements (order kept, nothing inserted). */
  predicate IsSubsequence<T(==)>(a: seq<T>, b: seq<T>)
    decreases |b|
  {
    if |b| == 0 then |a| == 0
    else IsSubsequence(a, b[1..]) || (|a| > 0 && a[0] == b[0] && IsSubsequence(a[1..], b[1..]))
  }

  /** `t` occurs in `s` starting at index `i`. */
  predicate OccursAt<T(==)>(s: seq<T>, i: int, t: seq<T>) {
    0 <= i && i + |t| <= |s| && s[i..i + |t|] == t
  }

  ghost predicate Contains<T>(s: seq<T>, t: seq<T>) {
    exists i :: OccursAt(s, i, t)
  }

  lemma {:induction false} SubsequenceRefl<T>(a: seq<T>)
    ensures IsSubsequence(a, a)
    decreases |a|
  {
    if |a| > 0 {
      SubsequenceRefl(a[1..]);
    }
  }

  lemma {:induction false} EmptyIsSubsequence<T>(b: seq<T>)
    ensures IsSubsequence([], b)
    decreases |b|
  {
    if |b| > 0 {
      EmptyIsSubsequence(b[1..]);
    }
  }

  lemma SubsequencePrepend<T>(a: seq<T>, x: T, b: seq<T>)
    requires IsSubsequence(a, b)
    ensures IsSubsequence(a, [x] + b)
  {
    assert ([x] + b)[1..] == b;
  }

  lemma SubsequenceCons<T>(x: T, a: seq<T>, b: seq<T>)
    requires IsSubsequence(a, b)
    ensures IsSubsequence([x] + a, [x] + b)
  {
    assert ([x] + a)[1..] == a;
    assert ([x] + b)[1..] == b;
  }

  /** Deletions compose: a subsequence of a subsequence is a subsequence. */
  lemma {:induction false} SubsequenceTrans<T>(a: seq<T>, b: seq<T>, c: seq<T>)
    requires IsSubsequence(a, b) && IsSubsequence(b, c)
    ensures IsSubsequence(a, c)
    decreases |c|
  {
    if |c| == 0 {
    } else if IsSubsequence(b, c[1..]) {
      SubsequenceTrans(a, b, c[1..]);
    } else {
      assert |b| > 0 && b[0] == c[0] && IsSubsequence(b[1..], c[1..]);
      if IsSubsequence(a, b[1..]) {
        SubsequenceTrans(a, b[1..], c[1..]);
      } else {
        assert |a| > 0 && a[0] == b[0] && IsSubsequence(a[1..], b[1..]);
        SubsequenceTrans(a[1..], b[1..], c[1..]);
      }
    }
  }

  /** Deletions in two halves give a deletion of the whole. */
  lemma {:induction false} SubsequenceConcat<T>(a1: seq<T>, b1: seq<T>, a2: seq<T>, b2: seq<T>)
    requires IsSubsequence(a1, b1) && IsSubsequence(a2, b2)
    ensures IsSubsequence(a1 + a2, b1 + b2)
    decreases |b1|
  {
    if |b1| == 0 {
      assert a1 + a2 == a2 && b1 + b2 == b2;
    } else {
      assert (b1 + b2)[1..] == b1[1..] + b2;
      if IsSubsequence(a1, b1[1..]) {
        SubsequenceConcat(a1, b1[1..], a2, b2);
        SubsequencePrepend(a1 + a2, b1[0], b1[1..] + b2);
        assert [b1[0]] + (b1[1..] + b2) == b1 + b2;
      } else {
        SubsequenceConcat(a1[1..], b1[1..], a2, b2);
        SubsequenceCons(a1[0], a1[1..] + a2, b1[1..] + b2);
        assert [a1[0]] + (a1[1..] + a2) == a1 + a2;
        assert [b1[0]] + (b1[1..] + b2) == b1 + b2;
      }
    }
  }

  /** Any slice is a subsequence of the whole. */
  lemma SliceIsSubsequence<T>(s: seq<T>, i: nat, j: nat)
    requires i <= j <= |s|
    ensures IsSubsequence(s[i..j], s)
  {
    var a, m, b := s[..i], s[i..j], s[j..];
    assert a + m + b == s;
    SliceOfThree(a, m, b);
  }

  lemma SliceOfThree<T>(a: seq<T>, m: seq<T>, b: seq<T>)
    ensures IsSubsequence(m, a + m + b)
  {
    SubsequenceRefl(m);
    EmptyIsSubsequence(a);
    EmptyIsSubsequence(b);
    SubsequenceConcat([], a, m, m);
    assert [] + m == m;
    SubsequenceConcat(m, a + m, [], b);
    assert m + [] == m;
  }

  /** Deleting the middle part `y` of `x + y + z` gives a subsequence. */
  lemma DropMiddleIsSubsequence<T>(x: seq<T>, y: seq<T>, z: seq<T>)
    ensures IsSubsequence(x + z, x + y + z)
  {
    SubsequenceRefl(x);
    SubsequenceRefl(z);
    EmptyIsSubsequence(y);
    SubsequenceConcat([], y, z, z);
    assert [] + z == z;
    SubsequenceConcat(x, x, z, y + z);
    assert x + y + z == x + (y + z);
  }

  /** A substring placed between two others is contained in the concatenation. */
  lemma ContainsMiddle<T>(a: seq<T>, t: seq<T>, b: seq<T>)
    ensures Contains(a + t + b, t)
  {
    assert (a + t + b)[|a|..|a| + |t|] == t;
    assert OccursAt(a + t + b, |a|, t);
  }

  /** Both spliced-in parts of `a + x + b + y + c` occur in it. */
  lemma ContainsBoth<T>(a: seq<T>, x: seq<T>, b: seq<T>, y: seq<T>, c: seq<T>)
    ensures Contains(a + x + b + y + c, x) && Contains(a + x + b + y + c, y)
  {
    var s := a + x + b + y + c;
    assert s[|a|..|a| + |x|] == x;
    assert OccursAt(s, |a|, x);
    assert s[|a| + |x| + |b|..|a| + |x| + |b| + |y|] == y;
    assert OccursAt(s, |a| + |x| + |b|, y);
  }

  /** A subsequence is never longer. */
  lemma {:induction false} SubsequenceLength<T>(a: seq<T>, b: seq<T>)
    requires IsSubsequence(a, b)
    ensures |a| <= |b|
    decreases |b|
  {
    if |b| > 0 {
      if IsSubsequence(a, b[1..]) {
        SubsequenceLength(a, b[1..]);
      } else {
        SubsequenceLength(a[1..], b[1..]);
      }
    }
  }

  // ---------------------------------------------------------------------------------------------
  // strip()
  // ---------------------------------------------------------------------------------------------

  /** The first index at or after `k` that does not hold a space (or `|s|`). */
  function SkipSpaces(s: string, k: nat): (j: nat)
    requires k <= |s|
    ensures k <= j <= |s|
    ensures AllSpace(s[k..j])
    ensures j == |s| || !IsSpace(s[j])
    decreases |s| - k
  {
    if k == |s| || !IsSpace(s[k]) then k else SkipSpaces(s, k + 1)
  }

  /** The least index `j >= lo` such that `s[j..hi]` is all spaces. */
  function SkipSpacesBack(s: string, lo: nat, hi: nat): (j: nat)
    requires lo <= hi <= |s|
    ensures lo <= j <= hi
    ensures AllSpace(s[j..hi])
    ensures j == lo || !IsSpace(s[j - 1])
    decreases hi - lo
  {
    if hi == lo || !IsSpace(s[hi - 1]) then hi
    else
      var j := SkipSpacesBack(s, lo, hi - 1);
      assert s[j..hi] == s[j..hi - 1] + [s[hi - 1]];
      j
  }

  /** Python's `s.strip()`: drops the leading and the trailing run of whitespace and nothing else. */
  function Strip(s: string): (r: string)
    ensures IsStripped(r)
    ensures SkipSpaces(s, 0) + |r| <= |s|
    ensures AllSpace(s[..SkipSpaces(s, 0)])
    ensures s[SkipSpaces(s, 0)..SkipSpaces(s, 0) + |r|] == r
    ensures AllSpace(s[SkipSpaces(s, 0) + |r|..])
  {
    var lo := SkipSpaces(s, 0);
    var hi := SkipSpacesBack(s, lo, |s|);
    assert lo < hi ==> !IsSpace(s[lo]) by {
      if lo < hi { assert lo < |s|; }
    }
    assert s[..lo] == s[0..lo];
    assert s[hi..] == s[hi..|s|];
    s[lo..hi]
  }

  lemma StripIsSubsequence(s: string)
    ensures IsSubsequence(Strip(s), s)
  {
    var lo := SkipSpaces(s, 0);
    SliceIsSubsequence(s, lo, lo + |Strip(s)|);
  }

  /** `strip()` is idempotent. */
  lemma StripStripped(s: string)
    requires IsStripped(s)
    ensures Strip(s) == s
  {
    if |s| > 0 {
      assert SkipSpaces(s, 0) == 0;
      assert SkipSpacesBack(s, 0, |s|) == |s|;
    }
  }

  // ---------------------------------------------------------------------------------------------
  // replace(pat, "")
  // ---------------------------------------------------------------------------------------------

  /** Python's `s.replace(pat, "")`: removes the non-overlapping occurrences of `pat` found by a
      left-to-right scan. */
  function DeleteAll(s: string, pat: string): (r: string)
    requires |pat| > 0
    ensures IsSubsequence(r, s)
    ensures |pat| == 1 ==> forall i :: 0 <= i < |r| ==> r[i] != pat[0]
    ensures !Contains(s, pat) ==> r == s
    decreases |s|
  {
    if |s| < |pat| then
      SubsequenceRefl(s);
      assert |pat| == 1 ==> |s| == 0;
      s
    else if s[..|pat|] == pat then
      var rest := DeleteAll(s[|pat|..], pat);
      assert OccursAt(s, 0, pat);
      DropMiddleIsSubsequence([], s[..|pat|], s[|pat|..]);
      assert [] + s[..|pat|] + s[|pat|..] == s;
      assert [] + s[|pat|..] == s[|pat|..];
      SubsequenceTrans(rest, s[|pat|..], s);
      rest
    else
      var rest := DeleteAll(s[1..], pat);
      SubsequenceCons(s[0], rest, s[1..]);
      assert [s[0]] + s[1..] == s;
      assert !Contains(s, pat) ==> !Contains(s[1..], pat) by {
        if Contains(s[1..], pat) {
          var i :| OccursAt(s[1..], i, pat);
          assert s[i + 1..i + 1 + |pat|] == s[1..][i..i + |pat|];
          assert OccursAt(s, i + 1, pat);
        }
      }
      assert |pat| == 1 ==> s[0] != pat[0] by {
        if |pat| == 1 { assert s[..1] == [s[0]]; }
      }
      [s[0]] + rest
  }

  /** An occurrence of the pattern is really deleted: the result is shorter. */
  lemma {:induction false} DeleteAllShrinks(s: string, pat: string)
    requires |pat| > 0 && Contains(s, pat)
    ensures |DeleteAll(s, pat)| < |s|
    decreases |s|
  {
    var i :| OccursAt(s, i, pat);
    if s[..|pat|] == pat {
      SubsequenceLength(DeleteAll(s[|pat|..], pat), s[|pat|..]);
    } else {
      assert i > 0;
      assert s[1..][i - 1..i - 1 + |pat|] == s[i..i + |pat|];
      assert OccursAt(s[1..], i - 1, pat);
      DeleteAllShrinks(s[1..], pat);
    }
  }

  /** The scan copies a prefix in which the pattern does not start, and goes on after it. */
  lemma {:induction false} DeleteAllSkipsPrefix(a: string, b: string, pat: string)
    requires |pat| > 0
    requires forall i :: 0 <= i < |a| ==> !OccursAt(a + b, i, pat)
    ensures DeleteAll(a + b, pat) == a + DeleteAll(b, pat)
    decreases |a|
  {
    var s := a + b;
    if |a| == 0 {
      assert s == b;
    } else if |s| < |pat| {
      assert DeleteAll(b, pat) == b;
    } else {
      assert !OccursAt(s, 0, pat);
      assert s[..|pat|] != pat;
      assert DeleteAll(s, pat) == [s[0]] + DeleteAll(s[1..], pat);
      assert s[1..] == a[1..] + b;
      forall i | 0 <= i < |a[1..]| ensures !OccursAt(a[1..] + b, i, pat) {
        OccursAtShift(s, i, pat);
      }
      DeleteAllSkipsPrefix(a[1..], b, pat);
      assert a == [a[0]] + a[1..];
    }
  }

  /** An occurrence in the tail is an occurrence one place further in the whole. */
  lemma OccursAtShift<T>(s: seq<T>, i: int, t: seq<T>)
    requires |s| > 0
    ensures OccursAt(s[1..], i, t) ==> OccursAt(s, i + 1, t)
  {
    if OccursAt(s[1..], i, t) {
      assert s[i + 1..i + 1 + |t|] == s[1..][i..i + |t|];
    }
  }

  /** An occurrence at the front is deleted and the scan resumes right after it. */
  lemma DeleteAllAtFront(pat: string, b: string)
    requires |pat| > 0
    ensures DeleteAll(pat + b, pat) == DeleteAll(b, pat)
  {
    assert (pat + b)[..|pat|] == pat;
    assert (pat + b)[|pat|..] == b;
  }

  /** `replace` deletes the first occurrence, keeps the text before it, and treats the text after
      it the same way; with `!Contains(s, pat) ==> DeleteAll(s, pat) == s` this determines the
      result on every input. */
  lemma DeleteFirstOccurrence(a: string, pat: string, b: string)
    requires |pat| > 0
    requires forall i :: 0 <= i < |a| ==> !OccursAt(a + pat + b, i, pat)
    ensures DeleteAll(a + pat + b, pat) == a + DeleteAll(b, pat)
  {
    assert a + pat + b == a + (pat + b);
    DeleteAllSkipsPrefix(a, pat + b, pat);
    DeleteAllAtFront(pat, b);
  }

  /** `strip()` of a stripped text behind one space is that text. */
  lemma StripLeadingSpace(x: string)
    requires |x| > 0 && IsStripped(x)
    ensures Strip(" " + x) == x
  {
    var s := " " + x;
    assert SkipSpaces(s, 1) == 1;
    assert SkipSpaces(s, 0) == 1;
    assert s[1..] == x;
  }

  /** A text in which the pattern's first two characters never stand side by side does not
      contain it. */
  lemma PairAbsent(s: string, t: string)
    requires |t| >= 2
    requires forall k :: 0 <= k && k + 1 < |s| ==> !(s[k] == t[0] && s[k + 1] == t[1])
    ensures !Contains(s, t)
  {
    forall i ensures !OccursAt(s, i, t) {
      OccursAtHead(s, i, t);
    }
  }

  lemma OccursAtHead(s: string, i: int, t: string)
    requires |t| >= 2
    ensures OccursAt(s, i, t) ==> s[i] == t[0] && s[i + 1] == t[1]
  {
    if OccursAt(s, i, t) {
      assert s[i..i + |t|][0] == s[i] && s[i..i + |t|][1] == s[i + 1];
    }
  }

  /** An occurrence in `[c1] + x + [c2]` of a pattern that neither starts with `c1` nor ends with
      `c2` lies inside `x`. */
  lemma ContainsInside(x: string, c1: char, c2: char, pat: string)
    requires |pat| > 0 && pat[0] != c1 && pat[|pat| - 1] != c2
    requires Contains([c1] + x + [c2], pat)
    ensures Contains(x, pat)
  {
    var s := [c1] + x + [c2];
    var i :| OccursAt(s, i, pat);
    assert s[i..i + |pat|][0] == s[i];
    assert s[i..i + |pat|][|pat| - 1] == s[i + |pat| - 1];
    assert 0 < i && i + |pat| <= |x| + 1;
    assert x[i - 1..i - 1 + |pat|] == s[i..i + |pat|];
    assert OccursAt(x, i - 1, pat);
  }

  /** A one-character occurrence is that character. */
  lemma OccursAtChar(s: string, i: int, c: char)
    ensures OccursAt(s, i, [c]) <==> 0 <= i < |s| && s[i] == c
  {
    if 0 <= i < |s| {
      assert s[i..i + 1] == [s[i]];
    }
  }

  /** A text without the character has no one-character occurrence of it. */
  lemma AvoidsChar(s: string, c: char)
    requires forall i :: 0 <= i < |s| ==> s[i] != c
    ensures !Contains(s, [c])
  {
    forall i ensures !OccursAt(s, i, [c]) {
      if 0 <= i < |s| {
        assert s[i..i + 1] == [s[i]];
      }
    }
  }

  // ---------------------------------------------------------------------------------------------
  // s[:n], join, split, splitlines, lower
  // ---------------------------------------------------------------------------------------------

  /** Python's `s[:n]` for `n >= 0`. */
  function Take(s: string, n: nat): (r: string)
    ensures r <= s
    ensures |r| == if |s| <= n then |s| else n
  {
    if |s| <= n then s else s[..n]
  }

  function Flatten(parts: seq<string>): string {
    if |parts| == 0 then "" else parts[0] + Flatten(parts[1..])
  }

  lemma {:induction false} FlattenConcat(a: seq<string>, b: seq<string>)
    ensures Flatten(a + b) == Flatten(a) + Flatten(b)
    decreases |a|
  {
    if |a| == 0 {
      assert a + b == b;
    } else {
      assert (a + b)[1..] == a[1..] + b;
      FlattenConcat(a[1..], b);
    }
  }

  /** Python's `sep.join(parts)`. */
  function Join(parts: seq<string>, sep: string): string {
    if |parts| == 0 then ""
    else if |parts| == 1 then parts[0]
    else parts[0] + sep + Join(parts[1..], sep)
  }

  /** The first index at or after `k` where `t` occurs in `s`. */
  function FindFrom(s: string, t: string, k: nat): (r: Option<nat>)
    requires k <= |s|
    ensures r.Some? ==> k <= r.value && OccursAt(s, r.value, t)
    ensures r.Some? ==> forall j :: k <= j < r.value ==> !OccursAt(s, j, t)
    ensures r.None? ==> forall j :: k <= j ==> !OccursAt(s, j, t)
    decreases |s| - k
  {
    if OccursAt(s, k, t) then Some(k)
    else if k + |t| >= |s| then None
    else FindFrom(s, t, k + 1)
  }

  /** Python's `s.split(sep)` with an explicit, non-empty separator. */
  function Split(s: string, sep: string): (pieces: seq<string>)
    requires |sep| > 0
    ensures |pieces| >= 1
    ensures forall i :: 0 <= i < |pieces| ==> !Contains(pieces[i], sep)
    ensures Join(pieces, sep) == s
    decreases |s|
  {
    match FindFrom(s, sep, 0)
    case None => [s]
    case Some(k) =>
      var head := s[..k];
      var rest := Split(s[k + |sep|..], sep);
      assert !Contains(head, sep) by {
        if Contains(head, sep) {
          var j :| OccursAt(head, j, sep);
          assert s[j..j + |sep|] == head[j..j + |sep|];
          assert OccursAt(s, j, sep);
        }
      }
      assert s == head + sep + s[k + |sep|..] by {
        assert s[k..k + |sep|] == sep;
      }
      [head] + rest
  }

  lemma {:induction false} SplitPiecesSubsequence(s: string, sep: string)
    requires |sep| > 0
    ensures IsSubsequence(Flatten(Split(s, sep)), s)
    decreases |s|
  {
    match FindFrom(s, sep, 0)
    case None =>
      SubsequenceRefl(s);
      assert Split(s, sep) == [s];
      assert [s][1..] == [];
      assert Flatten([s]) == s + "";
      assert s + "" == s;
    case Some(k) =>
      var rest := Split(s[k + |sep|..], sep);
      SplitPiecesSubsequence(s[k + |sep|..], sep);
      assert Split(s, sep) == [s[..k]] + rest;
      assert Flatten([s[..k]] + rest) == s[..k] + Flatten(rest) by {
        assert ([s[..k]] + rest)[1..] == rest;
      }
      DropMiddleIsSubsequence(s[..k], s[k..k + |sep|], s[k + |sep|..]);
      SubsequenceRefl(s[..k]);
      SubsequenceConcat(s[..k], s[..k], Flatten(rest), s[k + |sep|..]);
      assert s[..k] + s[k..k + |sep|] + s[k + |sep|..] == s;
      SubsequenceTrans(Flatten(Split(s, sep)), s[..k] + s[k + |sep|..], s);
  }

  /** A text without the separator splits into itself alone. */
  lemma SplitWithoutSeparator(s: string, sep: string)
    requires |sep| > 0 && !Contains(s, sep)
    ensures Split(s, sep) == [s]
  {
  }

  /** Each part is a subsequence of the concatenation of all parts. */
  lemma {:induction false} PartOfFlatten(parts: seq<string>, k: nat)
    requires k < |parts|
    ensures IsSubsequence(parts[k], Flatten(parts))
    decreases k
  {
    if k == 0 {
      SubsequenceRefl(parts[0]);
      EmptyIsSubsequence(Flatten(parts[1..]));
      SubsequenceConcat(parts[0], parts[0], [], Flatten(parts[1..]));
      assert parts[0] + [] == parts[0];
    } else {
      PartOfFlatten(parts[1..], k - 1);
      EmptyIsSubsequence(parts[0]);
      SubsequenceConcat([], parts[0], parts[k], Flatten(parts[1..]));
      assert [] + parts[k] == parts[k];
    }
  }

  /** Deleting characters cannot introduce a line break. */
  lemma {:induction false} SubsequenceNoLineBreak(a: string, b: string)
    requires IsSubsequence(a, b) && NoLineBreak(b)
    ensures NoLineBreak(a)
    decreases |b|
  {
    if |b| > 0 {
      assert NoLineBreak(b[1..]) by {
        forall i | 0 <= i < |b[1..]| ensures !IsLineBreak(b[1..][i]) {
          assert b[1..][i] == b[i + 1];
        }
      }
      if IsSubsequence(a, b[1..]) {
        SubsequenceNoLineBreak(a, b[1..]);
      } else {
        SubsequenceNoLineBreak(a[1..], b[1..]);
        forall i | 0 <= i < |a| ensures !IsLineBreak(a[i]) {
          if i > 0 { assert a[i] == a[1..][i - 1]; }
        }
      }
    }
  }

  /** An occurrence inside a substring is an occurrence in the whole text. */
  lemma SliceContains(s: string, i: nat, j: nat, t: string)
    requires i <= j <= |s|
    ensures Contains(s[i..j], t) ==> Contains(s, t)
  {
    if Contains(s[i..j], t) {
      var k :| OccursAt(s[i..j], k, t);
      forall m | 0 <= m < |t| ensures s[i + k + m] == t[m] {
        assert s[i..j][k..k + |t|][m] == t[m];
      }
      assert s[i + k..i + k + |t|] == t;
      assert OccursAt(s, i + k, t);
    }
  }

  /** The first line boundary at or after `k` (or `|s|`). */
  function NextBreak(s: string, k: nat): (j: nat)
    requires k <= |s|
    ensures k <= j <= |s|
    ensures NoLineBreak(s[k..j])
    ensures j == |s| || IsLineBreak(s[j])
    decreases |s| - k
  {
    if k == |s| || IsLineBreak(s[k]) then k else NextBreak(s, k + 1)
  }

  /** Python's `s.splitlines()`: the lines without their terminators; `\r\n` is one boundary, and a
      final boundary does not start an extra empty line. */
  function SplitLines(s: string): (lines: seq<string>)
    ensures forall i :: 0 <= i < |lines| ==> NoLineBreak(lines[i])
    decreases |s|
  {
    if |s| == 0 then []
    else
      var k := NextBreak(s, 0);
      assert s[..k] == s[0..k];
      if k == |s| then [s]
      else
        [s[..k]] + SplitLines(s[AfterBreak(s, k)..])
  }

  /** Where `splitlines` resumes after the first line boundary at `k`. */
  function AfterBreak(s: string, k: nat): (next: nat)
    requires k < |s|
    ensures k < next <= |s|
  {
    if s[k] == '\r' && k + 1 < |s| && s[k + 1] == '\n' then k + 2 else k + 1
  }

  /** One step of `SplitLines` when the text has a line boundary. */
  lemma SplitLinesStep(s: string)
    requires |s| > 0 && NextBreak(s, 0) < |s|
    ensures var k := NextBreak(s, 0);
      SplitLines(s) == [s[..k]] + SplitLines(s[AfterBreak(s, k)..])
  {
  }

  lemma {:induction false} SplitLinesSubsequence(s: string)
    ensures IsSubsequence(Flatten(SplitLines(s)), s)
    decreases |s|
  {
    if |s| == 0 {
    } else if NextBreak(s, 0) == |s| {
      SubsequenceRefl(s);
      assert SplitLines(s) == [s];
      assert [s][1..] == [];
      assert Flatten([s]) == s + "";
      assert s + "" == s;
    } else {
      var k := NextBreak(s, 0);
      var next := AfterBreak(s, k);
      var head, gap, tail := s[..k], s[k..next], s[next..];
      var rest := SplitLines(tail);
      SplitLinesStep(s);
      SplitLinesSubsequence(tail);
      assert Flatten([head] + rest) == head + Flatten(rest) by {
        assert ([head] + rest)[1..] == rest;
      }
      KeepPrefixDropMiddle(head, gap, tail, Flatten(rest));
      assert head + gap + tail == s;
    }
  }

  /** Keeping a prefix, dropping what follows it, and keeping a subsequence of the rest. */
  lemma KeepPrefixDropMiddle<T>(a: seq<T>, m: seq<T>, b: seq<T>, x: seq<T>)
    requires IsSubsequence(x, b)
    ensures IsSubsequence(a + x, a + m + b)
  {
    SubsequenceRefl(a);
    SubsequenceConcat(a, a, x, b);
    DropMiddleIsSubsequence(a, m, b);
    SubsequenceTrans(a + x, a + b, a + m + b);
  }

  /** Joining non-empty, break-free lines with `"\n"` and splitting them again gives them back. */
  lemma {:induction false} SplitLinesJoin(lines: seq<string>)
    requires forall i :: 0 <= i < |lines| ==> |lines[i]| > 0 && NoLineBreak(lines[i])
    ensures SplitLines(Join(lines, "\n")) == lines
    decreases |lines|
  {
    if |lines| == 0 {
    } else {
      var c := lines[0];
      if |lines| == 1 {
        assert c[..|c|] == c;
        BreakFreeNextBreak(c, |c|);
      } else {
        var rest := Join(lines[1..], "\n");
        var s := c + "\n" + rest;
        assert s[..|c|] == c;
        assert NextBreak(s, 0) == |c| by { BreakFreeNextBreak(s, |c|); }
        assert s[|c| + 1..] == rest;
        SplitLinesJoin(lines[1..]);
        assert lines == [c] + lines[1..];
      }
    }
  }

  /** When `s[..k]` holds no line break and `s[k]` is one (or `k == |s|`), the first break is at `k`. */
  lemma BreakFreeNextBreak(s: string, k: nat)
    requires k <= |s|
    requires NoLineBreak(s[..k])
    requires k == |s| || IsLineBreak(s[k])
    ensures NextBreak(s, 0) == k
  {
    forall i | 0 <= i < k
      ensures !IsLineBreak(s[i])
    {
      assert s[..k][i] == s[i];
    }
  }

  /** The characters of `s` that are not whitespace, in order. */
  function NonSpace(s: string): (r: string)
    ensures forall i :: 0 <= i < |r| ==> !IsSpace(r[i])
  {
    if |s| == 0 then "" else (if IsSpace(s[0]) then "" else [s[0]]) + NonSpace(s[1..])
  }

  lemma {:induction false} NonSpaceConcat(a: string, b: string)
    ensures NonSpace(a + b) == NonSpace(a) + NonSpace(b)
    decreases |a|
  {
    if |a| == 0 {
      assert a + b == b;
    } else {
      assert (a + b)[1..] == a[1..] + b;
      NonSpaceConcat(a[1..], b);
    }
  }

  lemma {:induction false} NonSpaceOfSpace(s: string)
    requires AllSpace(s)
    ensures NonSpace(s) == ""
    decreases |s|
  {
    if |s| > 0 {
      assert forall i :: 0 <= i < |s[1..]| ==> s[1..][i] == s[i + 1];
      NonSpaceOfSpace(s[1..]);
    }
  }

  /** `strip()` removes whitespace only. */
  lemma NonSpaceStrip(s: string)
    ensures NonSpace(Strip(s)) == NonSpace(s)
  {
    var lo := SkipSpaces(s, 0);
    var r := Strip(s);
    var hi := lo + |r|;
    assert s == s[..lo] + r + s[hi..];
    NonSpaceConcat(s[..lo] + r, s[hi..]);
    NonSpaceConcat(s[..lo], r);
    NonSpaceOfSpace(s[..lo]);
    NonSpaceOfSpace(s[hi..]);
  }

  /** Joining with a whitespace separator adds whitespace only. */
  lemma {:induction false} NonSpaceJoin(parts: seq<string>, sep: string)
    requires AllSpace(sep)
    ensures NonSpace(Join(parts, sep)) == NonSpace(Flatten(parts))
    decreases |parts|
  {
    if |parts| == 1 {
      assert parts[1..] == [];
      assert Flatten(parts) == parts[0] + "";
      assert parts[0] + "" == parts[0];
    } else if |parts| > 1 {
      NonSpaceJoin(parts[1..], sep);
      NonSpaceConcat(parts[0] + sep, Join(parts[1..], sep));
      NonSpaceConcat(parts[0], sep);
      NonSpaceOfSpace(sep);
      NonSpaceConcat(parts[0], Flatten(parts[1..]));
    }
  }

  /** Splitting on a whitespace separator loses whitespace only. */
  lemma NonSpaceSplit(s: string, sep: string)
    requires |sep| > 0 && AllSpace(sep)
    ensures NonSpace(Flatten(Split(s, sep))) == NonSpace(s)
  {
    NonSpaceJoin(Split(s, sep), sep);
  }

  /** Every line boundary `splitlines` removes is whitespace. */
  lemma {:induction false} NonSpaceSplitLines(s: string)
    ensures NonSpace(Flatten(SplitLines(s))) == NonSpace(s)
    decreases |s|
  {
    if |s| == 0 {
    } else if NextBreak(s, 0) == |s| {
      assert SplitLines(s) == [s];
      assert [s][1..] == [];
      assert Flatten([s]) == s + "";
      assert s + "" == s;
    } else {
      var k := NextBreak(s, 0);
      var head, tail := s[..k], s[AfterBreak(s, k)..];
      var rest := SplitLines(tail);
      SplitLinesStep(s);
      NonSpaceSplitLines(tail);
      assert Flatten([head] + rest) == head + Flatten(rest) by {
        assert ([head] + rest)[1..] == rest;
      }
      NonSpaceLineBreak(s, k);
      NonSpaceConcat(head, Flatten(rest));
    }
  }

  /** Dropping a line boundary keeps the non-space characters. */
  lemma NonSpaceLineBreak(s: string, k: nat)
    requires k < |s| && IsLineBreak(s[k])
    ensures NonSpace(s) == NonSpace(s[..k]) + NonSpace(s[AfterBreak(s, k)..])
  {
    var next := AfterBreak(s, k);
    var head, gap, tail := s[..k], s[k..next], s[next..];
    BreakIsSpace(s, k);
    assert s == head + gap + tail;
    NonSpaceDropsSpace(head, gap, tail);
  }

  /** A line boundary, `\r\n` included, is whitespace. */
  lemma BreakIsSpace(s: string, k: nat)
    requires k < |s| && IsLineBreak(s[k])
    ensures AllSpace(s[k..AfterBreak(s, k)])
  {
    var next := AfterBreak(s, k);
    var gap := s[k..next];
    if s[k] == '\r' && k + 1 < |s| && s[k + 1] == '\n' {
      assert next == k + 2;
      assert gap == [s[k], s[k + 1]];
    } else {
      assert next == k + 1;
      assert gap == [s[k]];
    }
  }

  lemma NonSpaceDropsSpace(a: string, w: string, b: string)
    requires AllSpace(w)
    ensures NonSpace(a + w + b) == NonSpace(a) + NonSpace(b)
  {
    NonSpaceConcat(a + w, b);
    NonSpaceConcat(a, w);
    NonSpaceOfSpace(w);
    assert NonSpace(a) + "" == NonSpace(a);
  }

  /** Python's `str(n)` for a natural number: its decimal digits, no sign, no leading zeros. */
  function NatToString(n: nat): (r: string)
    ensures |r| > 0
    ensures forall i :: 0 <= i < |r| ==> '0' <= r[i] <= '9'
  {
    if n < 10 then [('0' as int + n) as char]
    else NatToString(n / 10) + [('0' as int + n % 10) as char]
  }

  /** ASCII lower-casing of one character. */
  function LowerChar(c: char): char {
    if 'A' <= c <= 'Z' then (c as int + 32) as char else c
  }

  /** Python's `s.lower()`, restricted to ASCII letters. */
  function Lower(s: string): (r: string)
    ensures |r| == |s|
    ensures forall i :: 0 <= i < |s| ==> r[i] == LowerChar(s[i])
  {
    if |s| == 0 then [] else [LowerChar(s[0])] + Lower(s[1..])
  }
}

=== FILE: wrappers.dfy ===
/** Option and Result: the value-level stand-ins for Python's `None` and for raised exceptions. */
module Wrappers {

  datatype Option<+T> = None | Some(value: T) {

    /** The encapsulated value, or `default` when there is none. */
    function GetOr(default: T): T {
      match this
      case Some(v) => v
      case None => default
    }
  }

  /** The outcome of a computation that either returns a value or raises. */
  datatype Result<+R, +E> = Ok(value: R) | Err(error: E) {

    predicate IsFailure() {
      Err?
    }

    function PropagateFailure<U>(): Result<U, E>
      requires Err?
    {
      Err(error)
    }

    function Extract(): R
      requires Ok?
    {
      value
    }
  }
}
